=== FILE: README.md ===
# Pixel-to-Pattern in Dafny

This is a model of the three pieces of sequential logic in Pixel-to-Pattern's browser scripts. Each piece comes with proofs about what it does.

- **The stroke painter** (public/scripts/grid.js):
  - A grid of colour strings, all white when built.
  - A palette of seven swatches with black active at start-up.
  - A mouse state machine. Mouse-down starts a stroke and paints the origin. The first move along the origin's row or column locks that axis. Each later mouse-enter on the axis paints the inclusive run from the origin to the cursor. Mouse-up ends the stroke.
  - Modelled as an immutable `Painter` value (cells, active colour, pen) with one pure transition function per event.
- **The crochet instruction encoder** (instructions.js):
  - `rgb(r, g, b)` text becomes `#rrggbb`.
  - Palette hexes become names and then two-letter abbreviations.
  - Rows are printed bottom to top. Each row is run-length encoded, and odd printed rows are read reversed.
  - Each row line reads `Row n (RS →): sc 3 BK, …`, and `ch 1, turn;` separates rows.
  - The output opens with a three-line header.
- **The compact pattern encoder** (public/scripts/pattern.js):
  - Any colour text is normalised to a canonical hex and mapped to a one-letter yarn code, with `W` as the fallback.
  - Each row becomes space-separated `<count><code>` tokens.
  - Rows are numbered top to bottom, one per line.

Both encoders run the same run-length loop. `RunLength.Rle` models it once, in the loop's own accumulator form, and each encoder renders the runs in its own format. The JavaScript primitives the scripts rely on live in module `Text`:

- `String(n)`;
- `toString(16)` with `padStart`;
- `trim` with JavaScript's white-space set;
- ASCII `toLowerCase` and `toUpperCase`;
- `join` and `split`.

Both regular expressions are modelled as deterministic matchers:

- `^rgb\((\d+),\s*(\d+),\s*(\d+)\)$` is `Crochet.MatchRgb`.
- `/\d+/g` is `Pattern.DigitGroups`.

Every encoder is paired with a decoder or an independent description, and the lemmas connect the two. A crochet row line is read back by `Crochet.ReadRowLine` and the compact pattern by `Pattern.ReadPattern`.

Files: `wrappers.dfy` (Option), `text.dfy`, `hexcolor.dfy`, `runlength.dfy`, `palette.dfy`, `grid.dfy`, `stroke.dfy`, `crochet.dfy`, `pattern.dfy`, `agreement.dfy` (facts that relate the scripts to each other).

Three behaviours of the code are worth stating plainly, because a reader might expect otherwise:

- **Resizing leaves the stroke alone.** `buildGrid` replaces the cells and leaves `isMouseDown`, `startRow`, `startCol` and `axis` as they were (public/scripts/grid.js:85-124). So does `Stroke.Resize`. A stroke begun before the resize can therefore have its origin past the new grid's edge. Entering a cell on its row or column then paints the part of the run inside the grid, and `cells[...]` is `undefined` at the first index past the edge (grid.js:46). `Stroke.PaintSegment` paints exactly that in-grid part, and `Stroke.ResizeMidStroke` shows a case.
- **There is no separate result for an empty grid.** A grid without rows gives:
  - the three header lines from `gridToCrochetInstructions` (`Crochet.EmptyGridInstructions`);
  - the empty string from `buildPatternText` (`Pattern.PatternTextLines`).
- **Colour components are not clamped.** Both `rgbToHex` helpers write a component above 255 as a longer hex field, so the text is then longer than seven characters. `Crochet.RgbToHexMatched` and `Pattern.RgbToHexValue` give the result for any component size, and `HexColors.HexColorBytes` says when the fields are two digits long.

## Model

| member | source | states |
|---|---|---|
| Palette.PaletteWellFormed | public/scripts/grid.js:3-13 | Seven swatches with distinct names and distinct hexes, each a `#` followed by six characters; white is first and the start-up colour is black |
| Grid.BuildGrid | public/scripts/grid.js:92-100 | `rows` rows of `cols` cells, none for a non-positive bound, every cell `#ffffff` |
| Grid.SetCell | public/scripts/grid.js:45-49 | Cell (r, c) takes the new colour; every other cell and every row length is unchanged |
| Grid.PaintCols | public/scripts/grid.js:52-56 | Exactly columns lo..hi of row r take the colour; every other cell keeps its value |
| Grid.PaintRows | public/scripts/grid.js:57-61 | Exactly rows lo..hi of column c take the colour; every other cell keeps its value |
| Stroke.Init | public/scripts/grid.js:13 | On load: a 10 by 10 white grid, black active, no stroke |
| Stroke.SelectColor | public/scripts/grid.js:27-28 | A swatch click sets the active colour to that swatch and changes neither cells nor pen |
| Stroke.MouseDown | public/scripts/grid.js:104-111 | A stroke starts at (r, c) with no axis; only the origin cell changes, and it takes the active colour |
| Stroke.MouseUp | public/scripts/grid.js:127-131 | From any state the pen goes idle; cells and active colour are untouched; any rectangular grid with a palette colour is then well formed, whatever the stroke was |
| Stroke.PaintSegment | public/scripts/grid.js:45-63 | The grid keeps its shape; with no axis nothing changes; every changed cell takes the colour and lies on the locked axis through the origin; the cursor's cell ends up painted, and so does the origin when it is inside the grid |
| Stroke.Enter | public/scripts/grid.js:65-82 | For any well-formed state, including an origin left past the edge by a resize: while idle nothing changes; the origin stays put and a locked axis stays locked; every changed cell takes the active colour and lies on the stroke's line |
| Stroke.Drag | public/scripts/grid.js:65-82 | A sequence of mouse-enters keeps the painter well formed and the grid's shape |
| Stroke.Resize | public/scripts/grid.js:85-124 | The cells become a fresh blank grid; the active colour and the pen are left as they were; the painter stays well formed, so later events are still modelled |
| Stroke.ResizeMidStroke | public/scripts/grid.js:45-82 | With the origin at (9, 1) and the grid resized to 2 by 2, entering (0, 1) locks the column axis and paints rows 0 and 1 of column 1, the part of the run inside the grid |
| Stroke.EnterWhileIdle | public/scripts/grid.js:66 | A mouse-enter with no button held changes nothing |
| Stroke.EnterLocksAxis | public/scripts/grid.js:71-75 | With no axis, the origin's row locks the row axis, its column locks the column axis, and the origin or a diagonal changes nothing |
| Stroke.EnterOffAxisIgnored | public/scripts/grid.js:78-79 | Once an axis is locked, a cell off it is ignored |
| Stroke.EnterPaintsRowRun | public/scripts/grid.js:52-56 | An accepted row-axis enter at column c paints exactly min(startCol, c)..max(startCol, c) of the origin row |
| Stroke.EnterPaintsColRun | public/scripts/grid.js:57-61 | An accepted column-axis enter at row r paints exactly min(startRow, r)..max(startRow, r) of the origin column |
| Stroke.MouseUpNeverStuck | public/scripts/grid.js:127-131 | After a mouse-up, enters are no-ops and a second mouse-up changes nothing |
| Stroke.DragKeepsStroke | public/scripts/grid.js:65-82 | Through any run of enters the origin is fixed, and every cell that changed holds the active colour and lies on the stroke's line |
| Stroke.StrokeStaysOnLine | public/scripts/grid.js:104-114 | A whole stroke leaves the origin in the active colour and changes only cells on one line through the origin: its row, its column, or the origin alone |
| RunLength.Scan | instructions.js:69-75 | From any loop state (closed runs that spell the prefix read so far, an open run of the current value) the loop finishes with maximal runs that spell the whole input |
| RunLength.Rle | instructions.js:67-76 | The runs expand back to exactly the input, are maximal (counts at least 1, neighbours differ), and are empty exactly for the empty input |
| RunLength.CountsSumToLength | instructions.js:67-76 | The run counts add up to the length of the input |
| RunLength.MaximalUnique | instructions.js:70-72 | Two maximal run lists with the same expansion are equal, so the encoding is the only maximal one |
| RunLength.RleOfExpand | public/scripts/pattern.js:72-79 | Encoding the expansion of a maximal run list gives that list back |
| RunLength.RleReverse | instructions.js:91-93 | The runs of a reversed row are the row's runs in reverse order |
| Text.Hex | instructions.js:12 | `n.toString(16)`: hex digits that read back as n, one digit exactly below 16, at most two exactly below 256, and no leading zero |
| HexColors.HexColorBytes | instructions.js:12-13 | With every component at most 255 the colour is seven characters whose digit pairs read back as the components; a larger component makes it longer |
| Crochet.MatchRgb | instructions.js:10 | Only text starting `rgb(` can match; MatchRgbComplete and MatchRgbSound give the exact set of matching texts |
| Crochet.MatchRgbComplete | instructions.js:10 | Text of the form `rgb(d,␣*d,␣*d)` matches, with the three numbers its numerals denote |
| Crochet.MatchRgbSound | instructions.js:10-11 | Whatever matches has that form, so no other text is converted |
| Crochet.RgbToHex | instructions.js:9-14 | The result is the input unchanged or a `#` followed by hex digits; text not starting `rgb(` comes back unchanged |
| Crochet.RgbToHexMatched | instructions.js:10-13 | Matching text becomes the hex colour of its three numbers, whatever their size |
| Crochet.RgbToHexUnmatched | instructions.js:11 | Any text that is not `rgb(d,␣*d,␣*d)` comes back unchanged, such as `rgb(1,2)`, `rgb( 1,2,3)` or text with trailing white space |
| Crochet.RgbToHexReadsBack | instructions.js:12-13 | `rgb(...)` text with byte components becomes a seven-character hex whose pairs read back as those components |
| Crochet.RgbToHexIdempotent | instructions.js:9-14 | Converting twice is converting once |
| Crochet.HexToIdMap | instructions.js:53-60 | Every palette hex, lower-cased, is a key |
| Crochet.HexToIdMapKeys | instructions.js:57 | Every key is some swatch's lower-cased hex and maps to that swatch's id |
| Crochet.HexToIdMapLastWins | instructions.js:57 | A swatch whose hex no later swatch repeats maps to its own id |
| Crochet.AbbrFor | instructions.js:62-65 | At most two characters. A hex the map names by a non-empty id is replaced by that id; anything else is the id itself. A table id gives its abbreviation, any other id its first two characters upper-cased |
| Crochet.PaletteAbbreviations | instructions.js:48-65 | Every palette hex is abbreviated as its swatch name is in `COLOR_ABBR` |
| Crochet.PrintedRowReadsSource | instructions.js:88-93 | Printed row k encodes source row rows-k, reversed when k is odd and in order when k is even, as maximal runs |
| Crochet.Segment | instructions.js:94-96 | A run prints as `sc `, its count in decimal, a space and the abbreviation of its colour |
| Crochet.ReadSegmentOf | instructions.js:95 | `sc `, a numeral, a space and any text read back as that number and text |
| Crochet.SegmentReadsBack | instructions.js:95 | A segment reads back as its run's count and its colour's abbreviation |
| Crochet.SegmentsReadBack | instructions.js:94-96 | The `, `-joined segments of a row read back as its runs, in the same order, each with count and abbreviation, when no abbreviation holds a comma |
| Crochet.RowLine | instructions.js:97-98 | Every row line begins with `Row `, then the printed number and the side marker: `RS →` on odd rows, `WS ←` on even rows |
| Crochet.RowHeadReadsBack | instructions.js:97-98 | A row head followed by readable segments reads back as its printed number and those segments |
| Crochet.RowAbbreviationsCommaFree | instructions.js:62-65 | With no comma in the colours or the palette ids, no abbreviation of a row holds a comma |
| Crochet.RowLineReadsBack | instructions.js:86-98 | Row line k reads back as the number k and the runs of printed row k, in the order they are worked, each with its count and abbreviation, when no colour and no palette id holds a comma |
| Crochet.CrochetLines | instructions.js:83-100 | Three header lines, then row line k at position 2k+1 and a turning chain after every row but the last |
| Crochet.GridToCrochetInstructions | instructions.js:78-101 | When no colour name holds a line break, splitting the text at its newlines gives back exactly the lines |
| Crochet.RowLineCount | instructions.js:98 | Exactly one line per grid row begins with `Row ` |
| Crochet.InstructionLines | instructions.js:101 | When no colour name contains a line break, the text has exactly one line per grid row that begins with `Row ` |
| Crochet.EmptyGridInstructions | instructions.js:78-101 | A grid without rows yields the header and nothing else |
| Pattern.DigitGroups | public/scripts/pattern.js:18 | Each group is a non-empty run of decimal digits |
| Pattern.GroupsTake | public/scripts/pattern.js:18 | A numeral followed by a non-digit is the next group in the match list |
| Pattern.RgbToHex | public/scripts/pattern.js:16-23 | A colour exactly when the text has at least three digit groups, and then a `#` followed by hex digits |
| Pattern.RgbToHexValue | public/scripts/pattern.js:16-23 | With three groups or more, the result is the hex colour of the first three groups' values, whatever their size |
| Pattern.RgbToHexReadsGroups | public/scripts/pattern.js:19-22 | With byte values the result is seven characters whose pairs read back as the first three groups; later groups are ignored |
| Pattern.Canonical | public/scripts/pattern.js:29-31 | Any result starts with `#` and has at least seven characters, and is either the text itself or a `#` followed by hex digits |
| Pattern.NormalizeHex | public/scripts/pattern.js:26-32 | Empty text normalises to nothing; any result starts with `#` and has at least seven characters |
| Pattern.NormalizeAccepts | public/scripts/pattern.js:26-32 | A colour comes out exactly when the trimmed, lower-cased text is `#` plus six characters, or starts with `rgb` and has at least three digit groups |
| Pattern.NormalizeRejects | public/scripts/pattern.js:31 | Any other text, such as a colour name, a three-digit hex or `hsl(...)`, normalises to nothing |
| Pattern.NormalizedForm | public/scripts/pattern.js:28-30 | A normalised colour has no upper-case letter and no trailing white space |
| Pattern.NormalizePadded | public/scripts/pattern.js:28-29 | `#` and six characters, padded with any white space and in any case, normalise to their lower-case form |
| Pattern.NormalizeRgb | public/scripts/pattern.js:28-30 | Any text whose trimmed, lower-cased form starts `rgb` normalises to `rgbToHex` of that form, whatever white space or case it came with; text already trimmed and lower-case goes to `rgbToHex` as it is |
| Pattern.NormalizeFixed | public/scripts/pattern.js:29-31 | A canonical seven-character hex normalises to itself; a longer `#` text normalises to nothing |
| Pattern.NormalizeIdempotent | public/scripts/pattern.js:26-32 | Normalising a seven-character result again gives it back; a longer result normalises to nothing |
| Pattern.CodeFromColor | public/scripts/pattern.js:35-38 | Always one of W, K, R, G, B, Y, P; a code other than `W` comes exactly when the colour normalises to a non-white table hex, and it is that hex's code |
| Pattern.TableCodes | public/scripts/pattern.js:5-13 | Every table code is one of the seven single letters, and only white maps to `W` |
| Pattern.CodeOfTableColor | public/scripts/pattern.js:35-38 | A table hex with any white-space padding gets its own code |
| Pattern.CodeOfUpperTableColor | public/scripts/pattern.js:28 | A table hex written in upper case gets its own code too |
| Pattern.CodeGrid | public/scripts/pattern.js:57-63 | Every cell's colour becomes its code, the grid keeps its shape, and every entry is a single-letter code |
| Pattern.RleRow | public/scripts/pattern.js:70-80 | The empty row gives the empty text and any other row a non-empty text |
| Pattern.RleRowTokens | public/scripts/pattern.js:70-80 | The space-separated tokens of a non-empty row read as its maximal runs: counts at least 1, neighbouring codes different, spelling out the row |
| Pattern.RleRowExample | public/scripts/pattern.js:70-80 | Two whites then a black print as `2W 1K` |
| Pattern.RleRowRoundTrip | public/scripts/pattern.js:70-80 | Reading the `<count><code>` tokens back yields exactly the row of codes |
| Pattern.BuildPatternText | public/scripts/pattern.js:83-85 | The text is empty exactly when the grid has no rows |
| Pattern.PatternTextLines | public/scripts/pattern.js:84 | One line per row, top row first and none reversed: line i is `Row i+1: ` and that row's tokens |
| Pattern.PatternRoundTrip | public/scripts/pattern.js:83-85 | Reading the pattern text back yields exactly the grid of codes |
| Pattern.ColorsRoundTrip | public/scripts/pattern.js:57-85 | For any grid of colours, the pattern text reads back as the grid of their codes |
| Agreement.TableMatchesPalette | public/scripts/pattern.js:5-13 | The table's keys are exactly the swatch hexes, and distinct swatches get distinct codes |
| Agreement.SwatchColorCodes | public/scripts/pattern.js:35-38 | `codeFromColor` gives each swatch its table code |
| Agreement.CodeOfRgbText | public/scripts/pattern.js:35-38 | Whenever the hex of `rgb(d,␣*d,␣*d)` text is in the table, the text gets that hex's code |
| Agreement.ComputedRedIsRed | public/scripts/pattern.js:5-38 | `rgb(239, 68, 68)`, however it is spaced after the commas, gets the red code `R` |
| Agreement.RgbHelpersAgree | public/scripts/pattern.js:16-32 | On `rgb(d,␣*d,␣*d)` text, both `rgbToHex` helpers and `normalizeHex` give the same hex |

## Left out

- DOM construction, styles, event wiring and swatch highlighting (public/scripts/grid.js:15-35, 87-89, 95-120). The events are modelled as explicit transition functions instead.
- The resize button's `parseInt(...) || 10` input parsing (public/scripts/grid.js:137-142). Its effect on the model is `Stroke.Resize` with given sizes.
- `readGrid` and `ensureGridSizeDataAttrs` (instructions.js:16-45). They read the page and computed styles, and the second uses floating-point `Math.sqrt`. The encoders take a `seq<seq<string>>` instead.
- `exportCodeGridFromDOM` (public/scripts/pattern.js:41-67): only its per-cell colour-to-code mapping is modelled, as `Pattern.CodeGrid`. Reading the page and chunking into `cols`-wide rows are not.
- The save handler (instructions.js:105-124), which does network I/O, and `logPattern` with its console output (public/scripts/pattern.js:88-101).
- `hexToIdMap` reads the global `PALETTE`. It is modelled with the palette as a parameter, and the `typeof`/`Array.isArray` guard is not modelled.
- Stroke.Enter: does not model the `TypeError` an enter raises when a resize has left the stroke's origin past the grid's edge. It models the state that error leaves behind: the axis set and the in-grid part of the run painted. Only the error report in the browser console is missing.
- Crochet.AbbrFor: does not model the `'??'` result for a non-string id, because every id the model passes is a string.
- The colour maps are plain Dafny maps. A key shared with JavaScript's `Object.prototype` (such as `constructor`) is not modelled, since no colour text reaches one.
- `null` and `undefined` inputs are not modelled; only the empty string stands for a falsy colour.
- Case mapping covers ASCII letters only. Strings are sequences of Unicode scalar values, not UTF-16 code units.
- Number precision: `Number(n)` of a numeral above 2^53 loses precision in JavaScript. The model reads every numeral exactly.

=== FILE: agreement.dfy ===
/**
 * Facts tying the scripts together: the pattern table covers exactly the
 * palette of public/scripts/grid.js, and the two `rgbToHex` helpers agree on
 * the `rgb(r, g, b)` text a browser reports for a computed colour.
 */
module Agreement {

  import opened Wrappers
  import opened Text
  import opened Palette
  import Crochet
  import HexColors
  import Pattern

  /** The code the pattern table gives each swatch, in palette order. */
  const SWATCH_CODES: seq<string> := ["W", "K", "R", "G", "B", "Y", "P"]

  lemma SwatchCode(i: int)
    requires 0 <= i < |PALETTE|
    ensures PALETTE[i].hex in Pattern.HEX_TO_CODE && Pattern.HEX_TO_CODE[PALETTE[i].hex] == SWATCH_CODES[i]
  {
    // One branch per swatch, so that each map lookup is on a literal key.
    if i == 0 {
    } else if i == 1 {
    } else if i == 2 {
    } else if i == 3 {
    } else if i == 4 {
    } else if i == 5 {
    } else {
      assert i == 6;
    }
  }

  /** Every key of the pattern table is the hex of a swatch. */
  lemma TableKeysAreSwatches()
    ensures forall h :: h in Pattern.HEX_TO_CODE ==> exists i :: 0 <= i < |PALETTE| && PALETTE[i].hex == h
  {
    forall h | h in Pattern.HEX_TO_CODE
      ensures exists i :: 0 <= i < |PALETTE| && PALETTE[i].hex == h
    {
      if h == "#ffffff" {
        assert PALETTE[0].hex == h;
      } else if h == "#000000" {
        assert PALETTE[1].hex == h;
      } else if h == "#ef4444" {
        assert PALETTE[2].hex == h;
      } else if h == "#22c55e" {
        assert PALETTE[3].hex == h;
      } else if h == "#3b82f6" {
        assert PALETTE[4].hex == h;
      } else if h == "#f59e0b" {
        assert PALETTE[5].hex == h;
      } else {
        assert PALETTE[6].hex == h;
      }
    }
  }

  /**
   * Every swatch's hex is a key of the pattern table, every key is a
   * swatch's hex, and distinct swatches get distinct codes.
   */
  lemma TableMatchesPalette()
    ensures forall i :: 0 <= i < |PALETTE| ==> PALETTE[i].hex in Pattern.HEX_TO_CODE
    ensures forall h :: h in Pattern.HEX_TO_CODE ==> exists i :: 0 <= i < |PALETTE| && PALETTE[i].hex == h
    ensures forall i, j :: 0 <= i < j < |PALETTE| ==>
      Pattern.HEX_TO_CODE[PALETTE[i].hex] != Pattern.HEX_TO_CODE[PALETTE[j].hex]
  {
    TableKeysAreSwatches();
    forall i | 0 <= i < |PALETTE|
      ensures PALETTE[i].hex in Pattern.HEX_TO_CODE && Pattern.HEX_TO_CODE[PALETTE[i].hex] == SWATCH_CODES[i]
    {
      SwatchCode(i);
    }
    assert forall i, j :: 0 <= i < j < |SWATCH_CODES| ==> SWATCH_CODES[i] != SWATCH_CODES[j];
  }

  /** `codeFromColor` gives each swatch colour its table code. */
  lemma SwatchColorCodes()
    ensures forall i :: 0 <= i < |PALETTE| ==>
      PALETTE[i].hex in Pattern.HEX_TO_CODE && Pattern.CodeFromColor(PALETTE[i].hex) == SWATCH_CODES[i]
  {
    forall i | 0 <= i < |PALETTE|
      ensures PALETTE[i].hex in Pattern.HEX_TO_CODE && Pattern.CodeFromColor(PALETTE[i].hex) == SWATCH_CODES[i]
    {
      var h := PALETTE[i].hex;
      SwatchCode(i);
      Pattern.CodeOfTableColor("", h, "");
      assert "" + h + "" == h;
    }
  }

  lemma NoUpperJoin(a: string, b: string)
    requires NoUpper(a) && NoUpper(b)
    ensures NoUpper(a + b)
  {
  }

  lemma NumeralNoUpper(d: string)
    requires AllDigits(d)
    ensures NoUpper(d)
  {
  }

  lemma SpacesNoUpperNoDigits(w: string)
    requires AllSpaces(w)
    ensures NoUpper(w) && Pattern.NoDigits(w)
  {
  }

  /** `rgb(...)` text written the browser's way contains no upper-case letter. */
  lemma RgbTextNoUpper(d1: string, w2: string, d2: string, w3: string, d3: string)
    requires AllDigits(d1) && AllDigits(d2) && AllDigits(d3) && AllSpaces(w2) && AllSpaces(w3)
    ensures NoUpper(Crochet.RgbText(d1, w2, d2, w3, d3))
  {
    NumeralNoUpper(d1);
    NumeralNoUpper(d2);
    NumeralNoUpper(d3);
    SpacesNoUpperNoDigits(w2);
    SpacesNoUpperNoDigits(w3);
    NoUpperJoin(d3, [')']);
    NoUpperJoin(w3, d3 + [')']);
    NoUpperJoin([','], w3 + (d3 + [')']));
    NoUpperJoin(d2, [','] + (w3 + (d3 + [')'])));
    NoUpperJoin(w2, d2 + ([','] + (w3 + (d3 + [')']))));
    NoUpperJoin([','], w2 + (d2 + ([','] + (w3 + (d3 + [')'])))));
    NoUpperJoin(d1, [','] + (w2 + (d2 + ([','] + (w3 + (d3 + [')']))))));
    NoUpperJoin("rgb(", d1 + ([','] + (w2 + (d2 + ([','] + (w3 + (d3 + [')'])))))));
  }

  lemma SeparatorGroups(w: string, d: string, rest: string)
    requires AllSpaces(w) && IsNumeral(d) && (|rest| == 0 || !IsDigit(rest[0]))
    ensures Pattern.DigitGroups([','] + (w + (d + rest))) == [d] + Pattern.DigitGroups(rest)
  {
    SpacesNoUpperNoDigits(w);
    Pattern.GroupsTake(d, rest);
    Pattern.GroupsSkip(w, d + rest);
    Pattern.GroupsSkip([','], w + (d + rest));
  }

  /** The digit groups of `rgb(...)` text are its three numerals. */
  lemma RgbTextGroups(d1: string, w2: string, d2: string, w3: string, d3: string)
    requires IsNumeral(d1) && IsNumeral(d2) && IsNumeral(d3) && AllSpaces(w2) && AllSpaces(w3)
    ensures Pattern.DigitGroups(Crochet.RgbText(d1, w2, d2, w3, d3)) == [d1, d2, d3]
  {
    var blue := [','] + (w3 + (d3 + [')']));
    var rest := [','] + (w2 + (d2 + blue));
    assert Pattern.DigitGroups(blue) == [d3] by {
      SeparatorGroups(w3, d3, [')']);
      Pattern.GroupsSkip([')'], []);
      assert [')'] + [] == [')'];
    }
    SeparatorGroups(w2, d2, blue);
    Pattern.GroupsTake(d1, rest);
    Pattern.GroupsSkip("rgb(", d1 + rest);
  }

  /** On `rgb(...)` text the pattern script's normaliser hands over to its `rgbToHex`. */
  lemma NormalizeRgbText(d1: string, w2: string, d2: string, w3: string, d3: string)
    requires AllDigits(d1) && AllDigits(d2) && AllDigits(d3) && AllSpaces(w2) && AllSpaces(w3)
    ensures var s := Crochet.RgbText(d1, w2, d2, w3, d3);
      Pattern.NormalizeHex(s) == Pattern.RgbToHex(s)
  {
    var s := Crochet.RgbText(d1, w2, d2, w3, d3);
    RgbTextShape(d1, w2, d2, w3, d3);
    RgbTextNoUpper(d1, w2, d2, w3, d3);
    PlainText(s);
    Pattern.NormalizeRgb(s);
  }

  lemma RgbTextShape(d1: string, w2: string, d2: string, w3: string, d3: string)
    ensures var s := Crochet.RgbText(d1, w2, d2, w3, d3);
      s[0] == 'r' && s[|s| - 1] == ')' && StartsWith(s, "rgb")
  {
    var s := Crochet.RgbText(d1, w2, d2, w3, d3);
    assert s[..3] == "rgb";
  }

  /**
   * On `rgb(r, g, b)` text the pattern script's normaliser, its `rgbToHex`
   * and the instruction script's `rgbToHex` all give the same hex.
   */
  lemma RgbHelpersAgree(d1: string, w2: string, d2: string, w3: string, d3: string)
    requires IsNumeral(d1) && IsNumeral(d2) && IsNumeral(d3) && AllSpaces(w2) && AllSpaces(w3)
    ensures var s := Crochet.RgbText(d1, w2, d2, w3, d3);
      && Pattern.RgbToHex(s) == Some(Crochet.RgbToHex(s))
      && Pattern.NormalizeHex(s) == Pattern.RgbToHex(s)
  {
    var s := Crochet.RgbText(d1, w2, d2, w3, d3);
    RgbTextGroups(d1, w2, d2, w3, d3);
    Crochet.MatchRgbComplete(d1, w2, d2, w3, d3);
    NormalizeRgbText(d1, w2, d2, w3, d3);
  }

  /** The red swatch's components in hex. */
  lemma RedHex()
    ensures HexColors.HexColor(239, 68, 68) == "#ef4444"
  {
    assert HexByte(239) == "ef" by {
      assert Hex(239) == Hex(14) + [HexDigitChar(15)] == "ef";
    }
    assert HexByte(68) == "44" by {
      assert Hex(68) == Hex(4) + [HexDigitChar(4)] == "44";
    }
  }

  lemma RedNumerals()
    ensures IsNumeral("239") && IsNumeral("68")
    ensures DecimalValue("239") == 239 && DecimalValue("68") == 68
  {
    assert "239"[..2] == "23" && "23"[..1] == "2" && "2"[..0] == "";
    assert "68"[..1] == "6" && "6"[..0] == "";
  }

  /** `rgb(r, g, b)` text whose hex is in the pattern table gets that hex's code. */
  lemma CodeOfRgbText(d1: string, w2: string, d2: string, w3: string, d3: string)
    requires IsNumeral(d1) && IsNumeral(d2) && IsNumeral(d3) && AllSpaces(w2) && AllSpaces(w3)
    ensures var s := Crochet.RgbText(d1, w2, d2, w3, d3);
      Crochet.RgbToHex(s) in Pattern.HEX_TO_CODE ==> Pattern.CodeFromColor(s) == Pattern.HEX_TO_CODE[Crochet.RgbToHex(s)]
  {
    var s := Crochet.RgbText(d1, w2, d2, w3, d3);
    RgbHelpersAgree(d1, w2, d2, w3, d3);
    Pattern.TableCodes();
  }

  /**
   * The colour a browser reports for the red swatch, `rgb(239, 68, 68)`
   * however it is spaced after the commas, gets the red code.
   */
  lemma ComputedRedIsRed(w2: string, w3: string)
    requires AllSpaces(w2) && AllSpaces(w3)
    ensures Pattern.CodeFromColor(Crochet.RgbText("239", w2, "68", w3, "68")) == "R"
  {
    var s := Crochet.RgbText("239", w2, "68", w3, "68");
    assert IsNumeral("239") && IsNumeral("68") by {
      RedNumerals();
    }
    assert Crochet.RgbToHex(s) == "#ef4444" by {
      RedNumerals();
      RedHex();
      Crochet.RgbToHexMatched("239", w2, "68", w3, "68");
    }
    assert "#ef4444" in Pattern.HEX_TO_CODE && Pattern.HEX_TO_CODE["#ef4444"] == "R";
    CodeOfRgbText("239", w2, "68", w3, "68");
  }
}

=== FILE: crochet.dfy ===
/**
 * The crochet instruction writer of instructions.js: colour text is
 * normalised to hex, each grid row is run-length encoded, and rows are
 * written bottom to top, odd printed rows read right to left, as
 * `sc <count> <ABBR>` segments with a turning chain between rows.
 */
module Crochet {

  import opened Wrappers
  import opened Text
  import opened RunLength
  import opened Palette
  import opened HexColors
  import Grid

  // ---------------------------------------------------------------- rgb(...) to hex

  function SkipSpaces(t: string): string
  {
    t[|SpaceRun(t)|..]
  }

  /**
   * One captured number and the character that must follow it: the digits
   * at the front of `t`, then `sep`. Gives the number and what follows `sep`.
   */
  function Field(t: string, sep: char): Option<(nat, string)>
  {
    var d := DigitRun(t);
    if |d| == 0 || |d| == |t| || t[|d|] != sep then None
    else Some((DecimalValue(d), t[|d| + 1..]))
  }

  /** `\s*(\d+)\)$`: the last component and the end of the text. */
  function MatchBlue(t: string): Option<nat>
  {
    match Field(SkipSpaces(t), ')')
    case None => None
    case Some((blue, rest)) => if |rest| == 0 then Some(blue) else None
  }

  /** `\s*(\d+),\s*(\d+)\)$`: the last two components. */
  function MatchGreenBlue(t: string): Option<(nat, nat)>
  {
    match Field(SkipSpaces(t), ',')
    case None => None
    case Some((green, rest)) =>
      match MatchBlue(rest)
      case None => None
      case Some(blue) => Some((green, blue))
  }

  /**
   * The regular expression `^rgb\((\d+),\s*(\d+),\s*(\d+)\)$` and its three
   * captured numbers. A digit run can only be followed by `,` or `)` and a
   * space run only by a digit, so the greedy scan finds the one match there is.
   */
  function MatchRgb(s: string): (r: Option<(nat, nat, nat)>)
    ensures r.Some? ==> StartsWith(s, "rgb(")
  {
    if !StartsWith(s, "rgb(") then None
    else
      match Field(s[4..], ',')
      case None => None
      case Some((red, rest)) =>
        match MatchGreenBlue(rest)
        case None => None
        case Some((green, blue)) => Some((red, green, blue))
  }

  /**
   * The text the pattern above describes, from its pieces. The concatenation
   * is grouped from the right so that each suffix the matcher's stages see
   * (`MatchGreenBlue`, `MatchBlue`) is literally a subterm of the whole.
   */
  function RgbText(d1: string, w2: string, d2: string, w3: string, d3: string): string
  {
    "rgb(" + (d1 + ([','] + (w2 + (d2 + ([','] + (w3 + (d3 + [')'])))))))
  }

  /** A numeral followed by `sep` is read as one field. */
  lemma FieldOf(d: string, sep: char, rest: string)
    requires IsNumeral(d) && !IsDigit(sep)
    ensures Field(d + ([sep] + rest), sep) == Some((DecimalValue(d), rest))
  {
    var t := d + ([sep] + rest);
    DigitRunOf(d, [sep] + rest);
    assert t[|d|] == sep;
    assert t[|d| + 1..] == rest;
  }

  /** A space run before a digit is skipped exactly. */
  lemma SkipSpacesOf(w: string, rest: string)
    requires AllSpaces(w) && |rest| > 0 && IsDigit(rest[0])
    ensures SkipSpaces(w + rest) == rest
  {
    SpaceRunOf(w, rest);
    assert (w + rest)[|w|..] == rest;
  }

  /** What a field is made of when it is read. */
  lemma FieldShape(t: string, sep: char)
    requires Field(t, sep).Some?
    ensures var d := DigitRun(t);
      && IsNumeral(d)
      && t == d + ([sep] + Field(t, sep).value.1)
      && Field(t, sep).value.0 == DecimalValue(d)
  {
    var d := DigitRun(t);
    assert t == t[..|d|] + ([t[|d|]] + t[|d| + 1..]);
  }

  lemma Halves(a: string, b: string)
    ensures (a + b)[..|a|] == a && (a + b)[|a|..] == b
  {
  }

  lemma SkipShape(t: string)
    ensures t == SpaceRun(t) + SkipSpaces(t)
  {
    assert t == t[..|SpaceRun(t)|] + t[|SpaceRun(t)|..];
  }

  lemma BlueComplete(w: string, d: string)
    requires AllSpaces(w) && IsNumeral(d)
    ensures MatchBlue(w + (d + [')'])) == Some(DecimalValue(d))
  {
    SkipSpacesOf(w, d + [')']);
    FieldOf(d, ')', []);
    assert d + [')'] == d + ([')'] + []);
  }

  lemma GreenBlueComplete(w2: string, d2: string, w3: string, d3: string)
    requires AllSpaces(w2) && IsNumeral(d2) && AllSpaces(w3) && IsNumeral(d3)
    ensures MatchGreenBlue(w2 + (d2 + ([','] + (w3 + (d3 + [')']))))) == Some((DecimalValue(d2), DecimalValue(d3)))
  {
    var rest := w3 + (d3 + [')']);
    SkipSpacesOf(w2, d2 + ([','] + rest));
    FieldOf(d2, ',', rest);
    BlueComplete(w3, d3);
  }

  /**
   * Every text of the form `rgb(<digits>,<spaces><digits>,<spaces><digits>)`
   * matches, capturing the three numbers.
   */
  lemma MatchRgbComplete(d1: string, w2: string, d2: string, w3: string, d3: string)
    requires IsNumeral(d1) && IsNumeral(d2) && IsNumeral(d3)
    requires AllSpaces(w2) && AllSpaces(w3)
    ensures MatchRgb(RgbText(d1, w2, d2, w3, d3)) == Some((DecimalValue(d1), DecimalValue(d2), DecimalValue(d3)))
  {
    var rest := w2 + (d2 + ([','] + (w3 + (d3 + [')']))));
    Halves("rgb(", d1 + ([','] + rest));
    FieldOf(d1, ',', rest);
    GreenBlueComplete(w2, d2, w3, d3);
  }

  lemma BlueSound(t: string)
    requires MatchBlue(t).Some?
    ensures exists w, d :: AllSpaces(w) && IsNumeral(d) && t == w + (d + [')'])
  {
    var u := SkipSpaces(t);
    var w, d := SpaceRun(t), DigitRun(u);
    assert AllSpaces(w) && t == w + u by {
      SkipShape(t);
    }
    assert IsNumeral(d) && u == d + [')'] by {
      FieldShape(u, ')');
      var rest := Field(u, ')').value.1;
      assert rest == [] && [')'] + rest == [')'];
    }
  }

  lemma GreenBlueSound(t: string)
    requires MatchGreenBlue(t).Some?
    ensures exists w2, d2, w3, d3 ::
      AllSpaces(w2) && IsNumeral(d2) && AllSpaces(w3) && IsNumeral(d3) && t == w2 + (d2 + ([','] + (w3 + (d3 + [')']))))
  {
    var u := SkipSpaces(t);
    var rest := Field(u, ',').value.1;
    var w2, d2 := SpaceRun(t), DigitRun(u);
    assert AllSpaces(w2) && t == w2 + u by {
      SkipShape(t);
    }
    assert IsNumeral(d2) && u == d2 + ([','] + rest) by {
      FieldShape(u, ',');
    }
    BlueSound(rest);
    var w3, d3 :| AllSpaces(w3) && IsNumeral(d3) && rest == w3 + (d3 + [')']);
    assert t == w2 + (d2 + ([','] + (w3 + (d3 + [')']))));
  }

  /** Only texts of that form match: a match is always `rgb(...)` from its pieces. */
  lemma MatchRgbSound(s: string)
    requires MatchRgb(s).Some?
    ensures exists d1, w2, d2, w3, d3 ::
      && IsNumeral(d1) && IsNumeral(d2) && IsNumeral(d3) && AllSpaces(w2) && AllSpaces(w3)
      && s == RgbText(d1, w2, d2, w3, d3)
  {
    var t := s[4..];
    var rest := Field(t, ',').value.1;
    var d1 := DigitRun(t);
    assert s == "rgb(" + t by {
      assert s == s[..4] + s[4..];
    }
    assert IsNumeral(d1) && t == d1 + ([','] + rest) by {
      FieldShape(t, ',');
    }
    GreenBlueSound(rest);
    var w2, d2, w3, d3 :| AllSpaces(w2) && IsNumeral(d2) && AllSpaces(w3) && IsNumeral(d3)
      && rest == w2 + (d2 + ([','] + (w3 + (d3 + [')']))));
    assert s == RgbText(d1, w2, d2, w3, d3);
  }

  /**
   * `rgbToHex` of instructions.js: a matching `rgb(r, g, b)` becomes a `#`
   * colour, any other text comes back unchanged; in particular a text that
   * does not start with `rgb(`, such as a hex colour, is left alone.
   */
  function RgbToHex(s: string): (r: string)
    ensures r == s || (|r| >= 7 && r[0] == '#' && AllHexDigits(r[1..]))
    ensures !StartsWith(s, "rgb(") ==> r == s
  {
    match MatchRgb(s)
    case None => s
    case Some((red, green, blue)) => HexColor(red, green, blue)
  }

  /**
   * `rgb(r, g, b)` with byte components, however it is spaced, becomes the
   * seven-character hex colour whose digit pairs read back as r, g and b.
   */
  lemma RgbToHexReadsBack(d1: string, w2: string, d2: string, w3: string, d3: string)
    requires IsNumeral(d1) && IsNumeral(d2) && IsNumeral(d3) && AllSpaces(w2) && AllSpaces(w3)
    requires DecimalValue(d1) <= 255 && DecimalValue(d2) <= 255 && DecimalValue(d3) <= 255
    ensures IsHexColorOf(RgbToHex(RgbText(d1, w2, d2, w3, d3)), DecimalValue(d1), DecimalValue(d2), DecimalValue(d3))
  {
    MatchRgbComplete(d1, w2, d2, w3, d3);
    HexColorBytes(DecimalValue(d1), DecimalValue(d2), DecimalValue(d3));
  }

  /**
   * Matching text becomes the hex colour of its three numbers, whatever their
   * size: a component above 255 gives more than two digits.
   */
  lemma RgbToHexMatched(d1: string, w2: string, d2: string, w3: string, d3: string)
    requires IsNumeral(d1) && IsNumeral(d2) && IsNumeral(d3) && AllSpaces(w2) && AllSpaces(w3)
    ensures RgbToHex(RgbText(d1, w2, d2, w3, d3)) == HexColor(DecimalValue(d1), DecimalValue(d2), DecimalValue(d3))
  {
    MatchRgbComplete(d1, w2, d2, w3, d3);
  }

  /**
   * Text the pattern does not match comes back unchanged, including
   * `rgb(...)` text with two components, a space after `(` or trailing
   * white space.
   */
  lemma RgbToHexUnmatched(s: string)
    requires !exists d1, w2, d2, w3, d3 ::
      && IsNumeral(d1) && IsNumeral(d2) && IsNumeral(d3) && AllSpaces(w2) && AllSpaces(w3)
      && s == RgbText(d1, w2, d2, w3, d3)
    ensures RgbToHex(s) == s
  {
    if MatchRgb(s).Some? {
      MatchRgbSound(s);
    }
  }

  /** Converting twice converts once: the output never starts with `rgb(`. */
  lemma RgbToHexIdempotent(s: string)
    ensures RgbToHex(RgbToHex(s)) == RgbToHex(s)
  {
    var r := RgbToHex(s);
    if r != s {
      assert r[0] != "rgb("[0];
      assert !StartsWith(r, "rgb(");
    }
  }

  // ---------------------------------------------------------------- colour abbreviations

  /** Two-letter yarn abbreviations by palette name. */
  const COLOR_ABBR: map<string, string> := map[
    "white" := "WH", "black" := "BK", "red" := "RD", "green" := "GR",
    "blue" := "BL", "yellow" := "YL", "purple" := "PU"
  ]

  /**
   * `hexToIdMap`, with the palette it reads passed in (an undefined palette is
   * the empty one): every lower-cased palette hex is a key, every key comes
   * from the palette, and a key names the id of the LAST swatch carrying it.
   */
  function HexToIdMap(palette: seq<Color>): (m: map<string, string>)
    ensures forall i :: 0 <= i < |palette| ==> ToLower(palette[i].hex) in m
    decreases |palette|
  {
    if |palette| == 0 then map[]
    else
      var last := palette[|palette| - 1];
      var m := HexToIdMap(palette[..|palette| - 1])[ToLower(last.hex) := last.id];
      assert forall i :: 0 <= i < |palette| - 1 ==> palette[..|palette| - 1][i] == palette[i];
      m
  }

  /** Every key comes from some swatch, and names that swatch's id. */
  lemma {:induction false} HexToIdMapKeys(palette: seq<Color>, k: string)
    requires k in HexToIdMap(palette)
    ensures exists i :: 0 <= i < |palette| && ToLower(palette[i].hex) == k && HexToIdMap(palette)[k] == palette[i].id
    decreases |palette|
  {
    var n := |palette|;
    var init := palette[..n - 1];
    var key := ToLower(palette[n - 1].hex);
    assert HexToIdMap(palette) == HexToIdMap(init)[key := palette[n - 1].id];
    if k != key {
      HexToIdMapKeys(init, k);
      var i :| 0 <= i < |init| && ToLower(init[i].hex) == k && HexToIdMap(init)[k] == init[i].id;
      assert init[i] == palette[i];
    }
  }

  /** A swatch whose hex no later swatch repeats is the one its key names. */
  lemma {:induction false} HexToIdMapLastWins(palette: seq<Color>, i: int)
    requires 0 <= i < |palette|
    requires forall j :: i < j < |palette| ==> ToLower(palette[j].hex) != ToLower(palette[i].hex)
    ensures HexToIdMap(palette)[ToLower(palette[i].hex)] == palette[i].id
    decreases |palette|
  {
    var n := |palette|;
    var init := palette[..n - 1];
    var key := ToLower(palette[n - 1].hex);
    assert HexToIdMap(palette) == HexToIdMap(init)[key := palette[n - 1].id];
    if i < n - 1 {
      assert init[i] == palette[i];
      forall j | i < j < |init|
        ensures ToLower(init[j].hex) != ToLower(init[i].hex)
      {
        assert init[j] == palette[j];
      }
      HexToIdMapLastWins(init, i);
      assert key != ToLower(palette[i].hex);
    }
  }

  /** A hex the map names by a non-empty id; `abbrFor` then works with that id. */
  predicate NamedHex(idOrHex: string, hex2id: map<string, string>)
  {
    StartsWith(idOrHex, "#") && idOrHex in hex2id && hex2id[idOrHex] != ""
  }

  /**
   * `abbrFor`: a hex is first looked up as a palette id; a known id gives its
   * abbreviation, an unknown one its first two characters upper-cased. Text
   * that is no named hex (an id, an unknown hex, a hex named by the empty
   * id) is treated as the id itself. The answer has at most two characters.
   */
  function AbbrFor(idOrHex: string, hex2id: map<string, string>): (r: string)
    ensures |r| <= 2
    ensures NamedHex(idOrHex, hex2id) && hex2id[idOrHex] in COLOR_ABBR ==>
      r == COLOR_ABBR[hex2id[idOrHex]]
    ensures NamedHex(idOrHex, hex2id) && hex2id[idOrHex] !in COLOR_ABBR ==>
      r == ToUpper(hex2id[idOrHex][..Grid.Min(2, |hex2id[idOrHex]|)])
    ensures !NamedHex(idOrHex, hex2id) && idOrHex in COLOR_ABBR ==>
      r == COLOR_ABBR[idOrHex]
    ensures !NamedHex(idOrHex, hex2id) && idOrHex !in COLOR_ABBR ==>
      r == ToUpper(idOrHex[..Grid.Min(2, |idOrHex|)])
    ensures r in COLOR_ABBR.Values
      || r == ToUpper(idOrHex[..Grid.Min(2, |idOrHex|)])
      || (idOrHex in hex2id && r == ToUpper(hex2id[idOrHex][..Grid.Min(2, |hex2id[idOrHex]|)]))
  {
    var id := if NamedHex(idOrHex, hex2id) then hex2id[idOrHex] else idOrHex;
    if id in COLOR_ABBR then
      assert COLOR_ABBR[id] in COLOR_ABBR.Values;
      COLOR_ABBR[id]
    else ToUpper(id[..Grid.Min(2, |id|)])
  }

  /** Each palette hex is a key of the map and names its own swatch. */
  lemma PaletteKeys(i: int)
    requires 0 <= i < |PALETTE|
    ensures PALETTE[i].hex in HexToIdMap(PALETTE) && HexToIdMap(PALETTE)[PALETTE[i].hex] == PALETTE[i].id
  {
    PaletteWellFormed();
    PaletteLowerCase();
    HexToIdMapLastWins(PALETTE, i);
  }

  /** The palette hexes are already lower case. */
  lemma PaletteLowerCase()
    ensures forall j :: 0 <= j < |PALETTE| ==> ToLower(PALETTE[j].hex) == PALETTE[j].hex
  {
    forall j | 0 <= j < |PALETTE|
      ensures ToLower(PALETTE[j].hex) == PALETTE[j].hex
    {
      LowerOfNoUpper(PALETTE[j].hex);
    }
  }

  /** A palette colour's hex is abbreviated as its name is. */
  lemma PaletteAbbreviation(i: int)
    requires 0 <= i < |PALETTE|
    ensures PALETTE[i].id in COLOR_ABBR && AbbrFor(PALETTE[i].hex, HexToIdMap(PALETTE)) == COLOR_ABBR[PALETTE[i].id]
  {
    PaletteKeys(i);
    assert StartsWith(PALETTE[i].hex, "#");
    if i == 0 { assert PALETTE[i].id == "white"; }
    else if i == 1 { assert PALETTE[i].id == "black"; }
    else if i == 2 { assert PALETTE[i].id == "red"; }
    else if i == 3 { assert PALETTE[i].id == "green"; }
    else if i == 4 { assert PALETTE[i].id == "blue"; }
    else if i == 5 { assert PALETTE[i].id == "yellow"; }
    else { assert PALETTE[i].id == "purple"; }
  }

  /** Every swatch is written with the abbreviation of its name. */
  lemma PaletteAbbreviations()
    ensures forall i :: 0 <= i < |PALETTE| ==>
      PALETTE[i].id in COLOR_ABBR && AbbrFor(PALETTE[i].hex, HexToIdMap(PALETTE)) == COLOR_ABBR[PALETTE[i].id]
  {
    forall i | 0 <= i < |PALETTE|
      ensures PALETTE[i].id in COLOR_ABBR && AbbrFor(PALETTE[i].hex, HexToIdMap(PALETTE)) == COLOR_ABBR[PALETTE[i].id]
    {
      PaletteAbbreviation(i);
    }
  }

  // ---------------------------------------------------------------- the instructions

  const TURN: string := "ch 1, turn;"

  /** Printed rows count from 1 at the bottom of the grid. */
  function SourceRow(grid: seq<seq<string>>, printed: int): seq<string>
    requires 1 <= printed <= |grid|
  {
    grid[|grid| - printed]
  }

  /** The runs of printed row `printed`: its source row, reversed on odd (right side) rows. */
  function PrintedRuns(grid: seq<seq<string>>, printed: int): seq<Run<string>>
    requires 1 <= printed <= |grid|
  {
    var row := SourceRow(grid, printed);
    Rle(if printed % 2 == 1 then Reverse(row) else row)
  }

  /**
   * One run as `sc <count> <abbreviation>`: the count in decimal right after
   * `sc `, then a space and an abbreviation of at most two characters.
   */
  function Segment(run: Run<string>, hex2id: map<string, string>): (seg: string)
    ensures var d := Decimal(run.count);
      && |d| + 4 <= |seg| <= |d| + 6
      && seg[..3] == "sc " && seg[3..3 + |d|] == d && seg[3 + |d|] == ' '
      && seg[|d| + 4..] == AbbrFor(run.value, hex2id)
  {
    "sc " + Decimal(run.count) + " " + AbbrFor(run.value, hex2id)
  }

  function SegmentList(runs: seq<Run<string>>, hex2id: map<string, string>): (segs: seq<string>)
    ensures |segs| == |runs|
  {
    seq(|runs|, k requires 0 <= k < |runs| => Segment(runs[k], hex2id))
  }

  function Segments(runs: seq<Run<string>>, hex2id: map<string, string>): string
  {
    Join(SegmentList(runs, hex2id), ", ")
  }

  /** The side marker of a printed row: odd rows are right-side rows worked leftwards. */
  function Arrow(printed: int): string
  {
    if printed % 2 == 1 then "RS \U{2192}" else "WS \U{2190}"
  }

  /** The part of a row line before its segments: number and side marker. */
  function RowHead(printed: nat): string
  {
    "Row " + Decimal(printed) + " (" + Arrow(printed) + "): "
  }

  /**
   * The line for printed row `printed`; it is the only kind of line that
   * begins with `Row `, and its number and side marker follow.
   */
  function RowLine(grid: seq<seq<string>>, hex2id: map<string, string>, printed: int): (line: string)
    requires 1 <= printed <= |grid|
    ensures StartsWith(line, "Row ")
    ensures StartsWith(line, RowHead(printed))
  {
    var head := RowHead(printed);
    var line := head + Segments(PrintedRuns(grid, printed), hex2id);
    assert line[..|head|] == head;
    assert head[..4] == "Row ";
    line
  }

  // ---------------------------------------------------------------- reading a row line back

  /** `sc <count> <abbreviation>` read back as a run of the abbreviation; nothing for other text. */
  function ReadSegment(seg: string): Option<Run<string>>
  {
    if StartsWith(seg, "sc ") then
      var d := DigitRun(seg[3..]);
      if |d| > 0 && 3 + |d| < |seg| && seg[3 + |d|] == ' ' then Some(Run(DecimalValue(d), seg[4 + |d|..]))
      else None
    else None
  }

  /** Segments each behind a space of its own, as splitting `" " + text` at its commas leaves them. */
  function ReadSpacedSegments(pieces: seq<string>): Option<seq<Run<string>>>
  {
    if |pieces| == 0 then Some([])
    else if StartsWith(pieces[0], " ") then
      match (ReadSegment(pieces[0][1..]), ReadSpacedSegments(pieces[1..]))
      case (Some(run), Some(runs)) => Some([run] + runs)
      case _ => None
    else None
  }

  /** Text of `, `-separated segments read back in order; the empty text has none. */
  function ReadSegments(s: string): Option<seq<Run<string>>>
  {
    if s == "" then Some([]) else ReadSpacedSegments(Split(" " + s, ','))
  }

  /**
   * A row line read back: its printed number and its runs, each with the
   * abbreviation it was written with. Nothing unless the line starts with
   * `Row `, a numeral and the side marker that numeral's parity calls for.
   */
  function ReadRowLine(line: string): Option<(nat, seq<Run<string>>)>
  {
    if StartsWith(line, "Row ") then
      var d := DigitRun(line[4..]);
      var n := DecimalValue(d);
      var head := "Row " + d + " (" + Arrow(n) + "): ";
      if |d| > 0 && StartsWith(line, head) then
        match ReadSegments(line[|head|..])
        case Some(runs) => Some((n, runs))
        case None => None
      else None
    else None
  }

  /** The runs with their colours replaced by the abbreviations a row line shows. */
  function Abbreviated(runs: seq<Run<string>>, hex2id: map<string, string>): (out: seq<Run<string>>)
    ensures |out| == |runs|
  {
    seq(|runs|, k requires 0 <= k < |runs| => Run(runs[k].count, AbbrFor(runs[k].value, hex2id)))
  }

  /** `sc `, a numeral, a space and any text read back as that number and text. */
  lemma ReadSegmentOf(d: string, abbr: string)
    requires IsNumeral(d)
    ensures ReadSegment("sc " + d + " " + abbr) == Some(Run(DecimalValue(d), abbr))
  {
    var seg := "sc " + d + " " + abbr;
    assert seg[3..] == d + (" " + abbr);
    DigitRunOf(d, " " + abbr);
    assert seg[4 + |d|..] == abbr;
  }

  /** A segment reads back as its run's count and abbreviation. */
  lemma SegmentReadsBack(run: Run<string>, hex2id: map<string, string>)
    ensures ReadSegment(Segment(run, hex2id)) == Some(Run(run.count, AbbrFor(run.value, hex2id)))
  {
    ReadSegmentOf(Decimal(run.count), AbbrFor(run.value, hex2id));
  }

  lemma SegmentListCommaFree(runs: seq<Run<string>>, hex2id: map<string, string>)
    requires forall k :: 0 <= k < |runs| ==> ',' !in AbbrFor(runs[k].value, hex2id)
    ensures forall k :: 0 <= k < |runs| ==> ',' !in SegmentList(runs, hex2id)[k]
  {
    forall k | 0 <= k < |runs|
      ensures ',' !in SegmentList(runs, hex2id)[k]
    {
      DecimalAvoids(runs[k].count, ',');
      assert SegmentList(runs, hex2id)[k] == "sc " + Decimal(runs[k].count) + " " + AbbrFor(runs[k].value, hex2id);
    }
  }

  /** Pieces that each read back, behind a space, as the next run give all the runs. */
  lemma {:induction false} SpacedSegmentsReadBack(pieces: seq<string>, runs: seq<Run<string>>)
    requires |pieces| == |runs|
    requires forall k :: 0 <= k < |pieces| ==>
      StartsWith(pieces[k], " ") && ReadSegment(pieces[k][1..]) == Some(runs[k])
    ensures ReadSpacedSegments(pieces) == Some(runs)
  {
    if |pieces| > 0 {
      SpacedSegmentsReadBack(pieces[1..], runs[1..]);
      assert runs == [runs[0]] + runs[1..];
    }
  }

  /**
   * The segments of a row read back as its runs, in order, each with its
   * count and abbreviation, provided no abbreviation holds a comma.
   */
  lemma SegmentsReadBack(runs: seq<Run<string>>, hex2id: map<string, string>)
    requires forall k :: 0 <= k < |runs| ==> ',' !in AbbrFor(runs[k].value, hex2id)
    ensures ReadSegments(Segments(runs, hex2id)) == Some(Abbreviated(runs, hex2id))
  {
    var segs := SegmentList(runs, hex2id);
    if |runs| > 0 {
      SegmentListCommaFree(runs, hex2id);
      SplitSpaced(segs, ',');
      var pieces := seq(|segs|, i requires 0 <= i < |segs| => " " + segs[i]);
      assert |Segments(runs, hex2id)| > 0 by {
        assert Segments(runs, hex2id)[..|segs[0]|] == segs[0];
      }
      forall k | 0 <= k < |runs|
        ensures StartsWith(pieces[k], " ") && ReadSegment(pieces[k][1..]) == Some(Abbreviated(runs, hex2id)[k])
      {
        assert pieces[k][1..] == Segment(runs[k], hex2id);
        SegmentReadsBack(runs[k], hex2id);
      }
      SpacedSegmentsReadBack(pieces, Abbreviated(runs, hex2id));
    }
  }

  /** After `Row ` a row line holds its number's numeral, and its segments after the head. */
  lemma RowHeadParts(n: nat, segs: string)
    ensures var line := RowHead(n) + segs;
      && StartsWith(line, "Row ") && DigitRun(line[4..]) == Decimal(n)
      && StartsWith(line, RowHead(n)) && line[|RowHead(n)|..] == segs
  {
    var line := RowHead(n) + segs;
    var d := Decimal(n);
    var rest := " (" + Arrow(n) + "): " + segs;
    assert line[..4] == "Row " && line[4..] == d + rest;
    DigitRunOf(d, rest);
    assert line[..|RowHead(n)|] == RowHead(n);
  }

  /** A row head followed by readable segments reads back as its number and those segments. */
  lemma RowHeadReadsBack(n: nat, segs: string)
    requires ReadSegments(segs).Some?
    ensures ReadRowLine(RowHead(n) + segs) == Some((n, ReadSegments(segs).value))
  {
    RowHeadParts(n, segs);
    assert "Row " + Decimal(n) + " (" + Arrow(DecimalValue(Decimal(n))) + "): " == RowHead(n);
  }

  /** With no comma in the colours or the palette ids, no abbreviation of a row holds one. */
  lemma RowAbbreviationsCommaFree(grid: seq<seq<string>>, palette: seq<Color>, printed: int)
    requires FreeOf(grid, palette, ',') && 1 <= printed <= |grid|
    ensures forall k :: 0 <= k < |PrintedRuns(grid, printed)| ==>
      ',' !in AbbrFor(PrintedRuns(grid, printed)[k].value, HexToIdMap(palette))
  {
    var hex2id := HexToIdMap(palette);
    var runs := PrintedRuns(grid, printed);
    var row := SourceRow(grid, printed);
    assert forall j :: 0 <= j < |row| ==> ',' !in row[j];
    HexToIdMapAvoids(palette, ',');
    PrintedRunsAvoid(grid, printed, ',');
    AbbreviationsAreLetters(',');
    forall k | 0 <= k < |runs|
      ensures ',' !in AbbrFor(runs[k].value, hex2id)
    {
      AbbrAvoids(runs[k].value, hex2id, ',');
    }
  }

  /**
   * A row line reads back as its printed number and the runs of that row,
   * in the order they are worked, each with its count and abbreviation,
   * when no colour of the grid and no palette id holds a comma.
   */
  lemma RowLineReadsBack(grid: seq<seq<string>>, palette: seq<Color>, printed: int)
    requires FreeOf(grid, palette, ',') && 1 <= printed <= |grid|
    ensures ReadRowLine(RowLine(grid, HexToIdMap(palette), printed))
      == Some((printed, Abbreviated(PrintedRuns(grid, printed), HexToIdMap(palette))))
  {
    var hex2id := HexToIdMap(palette);
    var runs := PrintedRuns(grid, printed);
    RowAbbreviationsCommaFree(grid, palette, printed);
    SegmentsReadBack(runs, hex2id);
    assert RowLine(grid, hex2id, printed) == RowHead(printed) + Segments(runs, hex2id);
    RowHeadReadsBack(printed, Segments(runs, hex2id));
  }

  /** Row lines in printed order, each followed by a turn unless it is the last. */
  function Interleave(rows: seq<string>): seq<string>
  {
    if |rows| == 0 then []
    else [rows[0]] + (if |rows| > 1 then [TURN] else []) + Interleave(rows[1..])
  }

  /** The row lines for printed rows 1..rows, in printed order. */
  function RowLines(grid: seq<seq<string>>, hex2id: map<string, string>): seq<string>
  {
    seq(|grid|, k requires 0 <= k < |grid| => RowLine(grid, hex2id, k + 1))
  }

  /** The second line, on how to read the chart. */
  const READING_NOTE: string := NOTE_DIRECTION + NOTE_ODD_ROWS + NOTE_EVEN_ROWS

  const NOTE_DIRECTION: string := "Read flat, bottom to top. "
  const NOTE_ODD_ROWS: string := "Row 1 (RS) goes right\U{2192}left across chart; "
  const NOTE_EVEN_ROWS: string := "Row 2 (WS) left\U{2192}right; alternate."

  const STITCH_NOTE: string := " sts (single crochet, one stitch per pixel)"

  /** The first line; the column count is that of the first row. */
  function SizeLine(grid: seq<seq<string>>): string
  {
    var cols := if |grid| > 0 then |grid[0]| else 0;
    "Pattern: " + Decimal(|grid|) + " rows " + "\U{00D7}" + " " + Decimal(cols) + STITCH_NOTE
  }

  function HeaderLines(grid: seq<seq<string>>): seq<string>
  {
    [SizeLine(grid), READING_NOTE, ""]
  }

  /**
   * The output lines: three header lines, then printed row k at line 2k + 1
   * for k = 1..rows, each but the last followed by `ch 1, turn;`. A grid
   * without rows yields the header alone.
   */
  function CrochetLines(grid: seq<seq<string>>, palette: seq<Color>): (lines: seq<string>)
    ensures |lines| == (if |grid| == 0 then 3 else 2 * |grid| + 2)
    ensures lines[..3] == HeaderLines(grid)
    ensures forall k :: 1 <= k <= |grid| ==> lines[RowLineAt(k)] == RowLine(grid, HexToIdMap(palette), k)
    ensures forall k :: 1 <= k < |grid| ==> lines[TurnLineAt(k)] == TURN
  {
    var h := HexToIdMap(palette);
    var rows := RowLines(grid, h);
    HeaderAndRows(HeaderLines(grid), rows);
    assert forall k :: 1 <= k <= |grid| ==> rows[k - 1] == RowLine(grid, h, k);
    HeaderLines(grid) + Interleave(rows)
  }

  /**
   * `gridToCrochetInstructions`: the lines joined with newlines. When no
   * colour name holds a line break, splitting the text at its newlines gives
   * the lines back.
   */
  function GridToCrochetInstructions(grid: seq<seq<string>>, palette: seq<Color>): (text: string)
    ensures NoLineBreaks(grid, palette) ==> Split(text, '\n') == CrochetLines(grid, palette)
  {
    var lines := CrochetLines(grid, palette);
    if NoLineBreaks(grid, palette) then
      LinesUnbroken(grid, palette);
      SplitJoin(lines, '\n');
      Join(lines, "\n")
    else
      Join(lines, "\n")
  }

  // ---------------------------------------------------------------- layout of the output

  /** The index, among the output lines, of printed row `printed`. */
  function RowLineAt(printed: int): int { 2 * printed + 1 }

  /** The index of the turning chain after printed row `printed`. */
  function TurnLineAt(printed: int): int { 2 * printed + 2 }

  lemma {:induction false} InterleaveLayout(rows: seq<string>)
    ensures |Interleave(rows)| == if |rows| == 0 then 0 else 2 * |rows| - 1
    ensures forall k :: 0 <= k < |rows| ==> Interleave(rows)[2 * k] == rows[k]
    ensures forall k :: 0 <= k < |rows| - 1 ==> Interleave(rows)[2 * k + 1] == TURN
  {
    if |rows| > 0 {
      InterleaveLayout(rows[1..]);
      var head := [rows[0]] + (if |rows| > 1 then [TURN] else []);
      var rest := Interleave(rows[1..]);
      assert Interleave(rows) == head + rest;
      forall k | 1 <= k < |rows|
        ensures (head + rest)[2 * k] == rows[k]
      {
        assert 2 * k == |head| + 2 * (k - 1);
        assert rest[2 * (k - 1)] == rows[1..][k - 1];
      }
      forall k | 1 <= k < |rows| - 1
        ensures (head + rest)[2 * k + 1] == TURN
      {
        assert 2 * k + 1 == |head| + 2 * (k - 1) + 1;
      }
    }
  }

  /** Three header lines, then row k at `RowLineAt(k)`, a turn after every row but the last. */
  lemma HeaderAndRows(head: seq<string>, rows: seq<string>)
    requires |head| == 3
    ensures var lines := head + Interleave(rows);
      && |lines| == (if |rows| == 0 then 3 else 2 * |rows| + 2)
      && lines[..3] == head
      && (forall k :: 1 <= k <= |rows| ==> lines[RowLineAt(k)] == rows[k - 1])
      && (forall k :: 1 <= k < |rows| ==> lines[TurnLineAt(k)] == TURN)
  {
    InterleaveLayout(rows);
    var lines := head + Interleave(rows);
    forall k | 1 <= k <= |rows|
      ensures lines[RowLineAt(k)] == rows[k - 1]
    {
      assert lines[RowLineAt(k)] == Interleave(rows)[2 * (k - 1)];
    }
    forall k | 1 <= k < |rows|
      ensures lines[TurnLineAt(k)] == TURN
    {
      assert lines[TurnLineAt(k)] == Interleave(rows)[2 * (k - 1) + 1];
    }
  }

  /**
   * Printed row k reads source row rows - k: on odd rows its runs are those
   * of the source row in reverse order (the row is read right to left), on
   * even rows they are the source row's runs as they stand. Either way the
   * runs are maximal and spell out the row stitch by stitch.
   */
  lemma PrintedRowReadsSource(grid: seq<seq<string>>, printed: int)
    requires 1 <= printed <= |grid|
    ensures var row := grid[|grid| - printed];
      && PrintedRuns(grid, printed) == (if printed % 2 == 1 then Reverse(Rle(row)) else Rle(row))
      && Expand(PrintedRuns(grid, printed)) == (if printed % 2 == 1 then Reverse(row) else row)
      && Maximal(PrintedRuns(grid, printed))
  {
    RleReverse(grid[|grid| - printed]);
  }

  /** The number of lines that begin with `Row `. */
  function CountRowLines(lines: seq<string>): nat
  {
    if |lines| == 0 then 0
    else (if StartsWith(lines[0], "Row ") then 1 else 0) + CountRowLines(lines[1..])
  }

  lemma {:induction false} CountRowLinesAppend(a: seq<string>, b: seq<string>)
    ensures CountRowLines(a + b) == CountRowLines(a) + CountRowLines(b)
  {
    if |a| == 0 {
      assert a + b == b;
    } else {
      assert (a + b)[0] == a[0] && (a + b)[1..] == a[1..] + b;
      CountRowLinesAppend(a[1..], b);
    }
  }

  lemma {:induction false} InterleaveRowLines(rows: seq<string>)
    requires forall k :: 0 <= k < |rows| ==> StartsWith(rows[k], "Row ")
    ensures CountRowLines(Interleave(rows)) == |rows|
  {
    if |rows| > 0 {
      var head := [rows[0]] + (if |rows| > 1 then [TURN] else []);
      InterleaveRowLines(rows[1..]);
      CountRowLinesAppend(head, Interleave(rows[1..]));
      assert TURN[0] == 'c';
      assert CountRowLines([TURN]) == 0;
      if |rows| > 1 {
        CountRowLinesAppend([rows[0]], [TURN]);
      }
    }
  }

  lemma NotRowLine(s: string)
    requires |s| >= 2 && s[1] != 'o'
    ensures !StartsWith(s, "Row ")
  {
    if |s| >= 4 {
      assert s[..4][1] == s[1];
    }
  }

  lemma HeaderHasNoRowLine(grid: seq<seq<string>>)
    ensures CountRowLines(HeaderLines(grid)) == 0
  {
    var hd := HeaderLines(grid);
    NotRowLine(SizeLine(grid));
    NotRowLine(READING_NOTE);
    assert CountRowLines(hd[2..]) == 0 by {
      assert hd[2..][1..] == [];
    }
    assert hd[1..][1..] == hd[2..];
    assert CountRowLines(hd[1..]) == 0;
  }

  /** Exactly one line per grid row begins with `Row `. */
  lemma RowLineCount(grid: seq<seq<string>>, palette: seq<Color>)
    ensures CountRowLines(CrochetLines(grid, palette)) == |grid|
  {
    var h := HexToIdMap(palette);
    var rows := RowLines(grid, h);
    forall k | 0 <= k < |rows|
      ensures StartsWith(rows[k], "Row ")
    {
    }
    InterleaveRowLines(rows);
    HeaderHasNoRowLine(grid);
    CountRowLinesAppend(HeaderLines(grid), Interleave(rows));
  }

  /** No cell colour and no palette id contains the character `c`. */
  predicate FreeOf(grid: seq<seq<string>>, palette: seq<Color>, c: char)
  {
    && (forall r, j :: 0 <= r < |grid| && 0 <= j < |grid[r]| ==> c !in grid[r][j])
    && (forall i :: 0 <= i < |palette| ==> c !in palette[i].id)
  }

  /** No cell colour and no palette id contains a line break. */
  predicate NoLineBreaks(grid: seq<seq<string>>, palette: seq<Color>)
  {
    FreeOf(grid, palette, '\n')
  }

  // The lemmas below follow one character that is neither a digit nor an
  // upper-case letter (a line break, a comma) from the colours into the text.

  lemma DecimalAvoids(n: nat, c: char)
    requires !IsDigit(c)
    ensures c !in Decimal(n)
  {
    var d := Decimal(n);
    assert forall i :: 0 <= i < |d| ==> IsDigit(d[i]);
  }

  lemma UpperAvoids(s: string, c: char)
    requires c !in s && !('A' <= c <= 'Z')
    ensures c !in ToUpper(s)
  {
    var u := ToUpper(s);
    forall i | 0 <= i < |u|
      ensures u[i] != c
    {
      assert s[i] in s;
    }
  }

  /** An abbreviation holds `c` only if its colour or a palette id does. */
  lemma AbbrAvoids(idOrHex: string, hex2id: map<string, string>, c: char)
    requires !('A' <= c <= 'Z')
    requires c !in idOrHex && forall k :: k in hex2id ==> c !in hex2id[k]
    requires forall id :: id in COLOR_ABBR ==> c !in COLOR_ABBR[id]
    ensures c !in AbbrFor(idOrHex, hex2id)
  {
    if NamedHex(idOrHex, hex2id) {
      var id := hex2id[idOrHex];
      if id !in COLOR_ABBR {
        UpperAvoids(id[..Grid.Min(2, |id|)], c);
      }
    } else if idOrHex !in COLOR_ABBR {
      UpperAvoids(idOrHex[..Grid.Min(2, |idOrHex|)], c);
    }
  }

  /** The yarn abbreviations are two upper-case letters. */
  lemma AbbreviationsAreLetters(c: char)
    requires !('A' <= c <= 'Z')
    ensures forall id :: id in COLOR_ABBR ==> c !in COLOR_ABBR[id]
  {
    forall id | id in COLOR_ABBR
      ensures c !in COLOR_ABBR[id]
    {
      var a := COLOR_ABBR[id];
      assert a in COLOR_ABBR.Values;
      assert forall i :: 0 <= i < |a| ==> 'A' <= a[i] <= 'Z';
    }
  }

  lemma SegmentAvoids(run: Run<string>, hex2id: map<string, string>, c: char)
    requires !IsDigit(c) && !('A' <= c <= 'Z') && c !in "sc "
    requires c !in run.value && forall k :: k in hex2id ==> c !in hex2id[k]
    ensures c !in Segment(run, hex2id)
  {
    DecimalAvoids(run.count, c);
    AbbreviationsAreLetters(c);
    AbbrAvoids(run.value, hex2id, c);
  }

  lemma HexToIdMapAvoids(palette: seq<Color>, c: char)
    requires forall i :: 0 <= i < |palette| ==> c !in palette[i].id
    ensures forall k :: k in HexToIdMap(palette) ==> c !in HexToIdMap(palette)[k]
  {
    forall k | k in HexToIdMap(palette)
      ensures c !in HexToIdMap(palette)[k]
    {
      HexToIdMapKeys(palette, k);
    }
  }

  lemma SegmentsUnbroken(runs: seq<Run<string>>, hex2id: map<string, string>)
    requires forall k :: 0 <= k < |runs| ==> '\n' !in runs[k].value
    requires forall k :: k in hex2id ==> '\n' !in hex2id[k]
    ensures '\n' !in Segments(runs, hex2id)
  {
    var segs := SegmentList(runs, hex2id);
    forall k | 0 <= k < |runs|
      ensures '\n' !in segs[k]
    {
      SegmentAvoids(runs[k], hex2id, '\n');
    }
    JoinAvoids(segs, ", ", '\n');
  }

  /** The runs of a printed row carry colours of its source row. */
  lemma PrintedRunsAvoid(grid: seq<seq<string>>, printed: int, c: char)
    requires 1 <= printed <= |grid|
    requires forall j :: 0 <= j < |SourceRow(grid, printed)| ==> c !in SourceRow(grid, printed)[j]
    ensures forall k :: 0 <= k < |PrintedRuns(grid, printed)| ==> c !in PrintedRuns(grid, printed)[k].value
  {
    var runs := PrintedRuns(grid, printed);
    var row := SourceRow(grid, printed);
    var reading := if printed % 2 == 1 then Reverse(row) else row;
    forall k | 0 <= k < |runs|
      ensures c !in runs[k].value
    {
      ValueOfRun(runs, k);
      var x :| 0 <= x < |reading| && reading[x] == runs[k].value;
      if printed % 2 == 1 {
        assert reading[x] == row[|row| - 1 - x];
      }
    }
  }

  lemma PiecesUnbroken(d: string, arrow: string, segs: string)
    requires '\n' !in d && '\n' !in arrow && '\n' !in segs
    ensures '\n' !in "Row " + (d + " (" + arrow + "): " + segs)
  {
  }

  lemma RowLineUnbroken(grid: seq<seq<string>>, palette: seq<Color>, printed: int)
    requires NoLineBreaks(grid, palette) && 1 <= printed <= |grid|
    ensures '\n' !in RowLine(grid, HexToIdMap(palette), printed)
  {
    var segs := Segments(PrintedRuns(grid, printed), HexToIdMap(palette));
    assert '\n' !in segs by {
      HexToIdMapAvoids(palette, '\n');
      var row := SourceRow(grid, printed);
      assert forall j :: 0 <= j < |row| ==> '\n' !in row[j];
      PrintedRunsAvoid(grid, printed, '\n');
      SegmentsUnbroken(PrintedRuns(grid, printed), HexToIdMap(palette));
    }
    DecimalAvoids(printed, '\n');
    assert '\n' !in Arrow(printed);
    PiecesUnbroken(Decimal(printed), Arrow(printed), segs);
  }

  lemma SizeLineUnbroken(grid: seq<seq<string>>)
    ensures '\n' !in SizeLine(grid)
  {
    DecimalAvoids(|grid|, '\n');
    DecimalAvoids(if |grid| > 0 then |grid[0]| else 0, '\n');
    assert '\n' !in "Pattern: " && '\n' !in " rows " && '\n' !in "\U{00D7}";
    StitchNoteUnbroken();
  }

  // One lemma per header literal: asking the verifier about `'\n' !in` a
  // long literal inside a larger proof walks the literal character by
  // character, so each literal is settled once here, on its own.
  lemma StitchNoteUnbroken() ensures '\n' !in STITCH_NOTE {}
  lemma DirectionUnbroken() ensures '\n' !in NOTE_DIRECTION {}
  lemma OddRowsUnbroken() ensures '\n' !in NOTE_ODD_ROWS {}
  lemma EvenRowsUnbroken() ensures '\n' !in NOTE_EVEN_ROWS {}

  lemma HeaderUnbroken(grid: seq<seq<string>>)
    ensures forall i :: 0 <= i < 3 ==> '\n' !in HeaderLines(grid)[i]
  {
    SizeLineUnbroken(grid);
    DirectionUnbroken();
    OddRowsUnbroken();
    EvenRowsUnbroken();
  }

  lemma {:induction false} InterleaveUnbroken(rows: seq<string>)
    requires forall k :: 0 <= k < |rows| ==> '\n' !in rows[k]
    ensures forall i :: 0 <= i < |Interleave(rows)| ==> '\n' !in Interleave(rows)[i]
  {
    if |rows| > 0 {
      InterleaveUnbroken(rows[1..]);
      assert '\n' !in TURN;
    }
  }

  /** No output line holds a line break when no colour and no palette id does. */
  lemma LinesUnbroken(grid: seq<seq<string>>, palette: seq<Color>)
    requires NoLineBreaks(grid, palette)
    ensures forall i :: 0 <= i < |CrochetLines(grid, palette)| ==> '\n' !in CrochetLines(grid, palette)[i]
  {
    var hex2id := HexToIdMap(palette);
    var rows := RowLines(grid, hex2id);
    forall k | 0 <= k < |rows|
      ensures '\n' !in rows[k]
    {
      assert rows[k] == RowLine(grid, hex2id, k + 1);
      RowLineUnbroken(grid, palette, k + 1);
    }
    InterleaveUnbroken(rows);
    HeaderUnbroken(grid);
    AppendUnbroken(HeaderLines(grid), Interleave(rows));
  }

  lemma AppendUnbroken(a: seq<string>, b: seq<string>)
    requires forall i :: 0 <= i < |a| ==> '\n' !in a[i]
    requires forall i :: 0 <= i < |b| ==> '\n' !in b[i]
    ensures forall i :: 0 <= i < |a + b| ==> '\n' !in (a + b)[i]
  {
  }

  /**
   * When no colour and no palette id contains a line break, the text splits
   * at its newlines into exactly the lines `CrochetLines` describes: a
   * reader of the text sees the header, then one `Row` line per grid row.
   */
  lemma InstructionLines(grid: seq<seq<string>>, palette: seq<Color>)
    requires NoLineBreaks(grid, palette)
    ensures CountRowLines(Split(GridToCrochetInstructions(grid, palette), '\n')) == |grid|
  {
    RowLineCount(grid, palette);
  }

  /**
   * A grid with no rows gives the three header lines and nothing else: the
   * size line, the reading note and an empty line.
   */
  lemma EmptyGridInstructions(palette: seq<Color>)
    ensures CrochetLines([], palette) == HeaderLines([])
    ensures GridToCrochetInstructions([], palette) == SizeLine([]) + "\n" + READING_NOTE + "\n"
  {
    var hd := HeaderLines([]);
    assert CrochetLines([], palette) == hd by {
      assert Interleave(RowLines([], HexToIdMap(palette))) == [];
    }
    assert Join(hd[2..], "\n") == "" by {
      assert hd[2..] == [""];
    }
    assert Join(hd[1..], "\n") == READING_NOTE + "\n" by {
      assert hd[1..][1..] == hd[2..];
    }
  }
}

=== FILE: grid.dfy ===
/**
 * The painted grid of public/scripts/grid.js: `cells[row][col]` holds the
 * colour string the cell was last painted with (its `data-color`).
 */
module Grid {

  type Cells = seq<seq<string>>

  /** The colour every cell is built with. */
  const BACKGROUND: string := "#ffffff"

  function Min(a: int, b: int): int { if a <= b then a else b }

  function Max(a: int, b: int): int { if a <= b then b else a }

  predicate InBounds(g: Cells, r: int, c: int)
  {
    0 <= r < |g| && 0 <= c < |g[r]|
  }

  /** Every row as long as the first. */
  predicate Rectangular(g: Cells)
  {
    forall i :: 0 <= i < |g| ==> |g[i]| == |g[0]|
  }

  predicate SameShape(g: Cells, h: Cells)
  {
    |g| == |h| && forall i :: 0 <= i < |g| ==> |g[i]| == |h[i]|
  }

  /**
   * The grid `buildGrid(rows, cols)` lays out. Its loops run zero times for
   * a non-positive bound, so such a bound gives no rows or empty rows.
   */
  function Blank(rows: int, cols: int): Cells
  {
    seq(Max(rows, 0), _ => seq(Max(cols, 0), _ => BACKGROUND))
  }

  /**
   * `buildGrid`'s nested loops: `rows` rows of `cols` cells (none for a
   * non-positive bound), every one the background white.
   */
  method BuildGrid(rows: int, cols: int) returns (cells: Cells)
    ensures |cells| == Max(rows, 0)
    ensures forall r :: 0 <= r < |cells| ==> |cells[r]| == Max(cols, 0)
    ensures forall r, c :: 0 <= r < |cells| && 0 <= c < |cells[r]| ==> cells[r][c] == BACKGROUND
    ensures cells == Blank(rows, cols)
  {
    cells := [];
    var r := 0;
    while r < rows
      invariant 0 <= r <= Max(rows, 0)
      invariant |cells| == r
      invariant forall i :: 0 <= i < r ==> cells[i] == seq(Max(cols, 0), _ => BACKGROUND)
    {
      var rowArr: seq<string> := [];
      var c := 0;
      while c < cols
        invariant 0 <= c <= Max(cols, 0)
        invariant rowArr == seq(c, _ => BACKGROUND)
      {
        rowArr := rowArr + [BACKGROUND];
        c := c + 1;
      }
      cells := cells + [rowArr];
      r := r + 1;
    }
  }

  /**
   * `setCellColor(r, c, hex)`: cell (r, c) now holds `hex`, every other cell
   * holds what it held, and no row changes length.
   */
  function SetCell(g: Cells, r: int, c: int, hex: string): (h: Cells)
    requires InBounds(g, r, c)
    ensures SameShape(g, h)
    ensures h[r][c] == hex
    ensures forall i, j :: InBounds(g, i, j) && (i != r || j != c) ==> h[i][j] == g[i][j]
  {
    g[r := g[r][c := hex]]
  }

  /**
   * The row-axis loop of `paintSegmentTo`, painting columns `lo..hi` of row
   * `r`: exactly those cells hold `hex` afterwards, all others are untouched.
   */
  function PaintCols(g: Cells, r: int, lo: int, hi: int, hex: string): (h: Cells)
    requires 0 <= r < |g| && 0 <= lo && hi < |g[r]|
    ensures SameShape(g, h)
    ensures forall i, j :: InBounds(g, i, j) ==> h[i][j] == if i == r && lo <= j <= hi then hex else g[i][j]
    decreases hi - lo
  {
    if lo > hi then g else PaintCols(SetCell(g, r, lo, hex), r, lo + 1, hi, hex)
  }

  /**
   * The column-axis loop of `paintSegmentTo`, painting rows `lo..hi` of
   * column `c`: exactly those cells hold `hex` afterwards.
   */
  function PaintRows(g: Cells, c: int, lo: int, hi: int, hex: string): (h: Cells)
    requires 0 <= lo && hi < |g| && 0 <= c
    requires forall i :: lo <= i <= hi ==> c < |g[i]|
    ensures SameShape(g, h)
    ensures forall i, j :: InBounds(g, i, j) ==> h[i][j] == if j == c && lo <= i <= hi then hex else g[i][j]
    decreases hi - lo
  {
    if lo > hi then g else PaintRows(SetCell(g, lo, c, hex), c, lo + 1, hi, hex)
  }
}

=== FILE: hexcolor.dfy ===
/**
 * The `#rrggbb` text both `rgbToHex` helpers build from three numbers, each
 * written with `toString(16).padStart(2, "0")`.
 */
module HexColors {

  import opened Text

  /** `#` and three components, each `toString(16).padStart(2, "0")`. */
  function HexColor(red: nat, green: nat, blue: nat): (r: string)
    ensures |r| >= 7 && r[0] == '#' && AllHexDigits(r[1..])
  {
    var x, y, z := HexByte(red), HexByte(green), HexByte(blue);
    HexDigitsConcat(x, y, z);
    assert ("#" + (x + y + z))[1..] == x + y + z;
    "#" + (x + y + z)
  }

  lemma HexDigitsConcat(x: string, y: string, z: string)
    requires AllHexDigits(x) && AllHexDigits(y) && AllHexDigits(z)
    ensures AllHexDigits(x + y + z)
  {
  }

  lemma PairsOf(x: string, y: string, z: string)
    requires |x| == 2 && |y| == 2 && |z| == 2
    ensures var r := "#" + (x + y + z); |r| == 7 && r[1..3] == x && r[3..5] == y && r[5..7] == z
  {
  }

  /** `#rrggbb` in lower-case hex whose digit pairs read as the three components. */
  predicate IsHexColorOf(r: string, red: nat, green: nat, blue: nat)
  {
    && |r| == 7 && r[0] == '#' && AllHexDigits(r[1..])
    && HexValue(r[1..3]) == red && HexValue(r[3..5]) == green && HexValue(r[5..7]) == blue
  }

  /**
   * When every component is a byte the colour is seven characters and each
   * pair of digits reads back as its component; a larger component makes it
   * longer.
   */
  lemma HexColorBytes(red: nat, green: nat, blue: nat)
    ensures red <= 255 && green <= 255 && blue <= 255 ==> IsHexColorOf(HexColor(red, green, blue), red, green, blue)
    ensures red > 255 || green > 255 || blue > 255 ==> |HexColor(red, green, blue)| > 7
  {
    var x, y, z := HexByte(red), HexByte(green), HexByte(blue);
    if red <= 255 && green <= 255 && blue <= 255 {
      PairsOf(x, y, z);
    }
  }
}

=== FILE: palette.dfy ===
/** The swatches of public/scripts/grid.js and the colour a fresh page paints with. */
module Palette {

  /** A swatch: its name and its canonical lower-case `#rrggbb` value. */
  datatype Color = Color(id: string, hex: string)

  /** The seven swatches, in display order. */
  const PALETTE: seq<Color> := [
    Color("white", "#ffffff"),
    Color("black", "#000000"),
    Color("red", "#ef4444"),
    Color("green", "#22c55e"),
    Color("blue", "#3b82f6"),
    Color("yellow", "#f59e0b"),
    Color("purple", "#8b5cf6")
  ]

  /** The active colour when the page loads: the second swatch. */
  const DEFAULT_ACTIVE: Color := PALETTE[1]

  /**
   * Seven swatches with pairwise distinct names and pairwise distinct hex
   * values; white comes first and the start-up colour is black.
   */
  lemma PaletteWellFormed()
    ensures |PALETTE| == 7
    ensures forall i, j :: 0 <= i < j < |PALETTE| ==> PALETTE[i].hex != PALETTE[j].hex
    ensures forall i, j :: 0 <= i < j < |PALETTE| ==> PALETTE[i].id != PALETTE[j].id
    ensures forall i :: 0 <= i < |PALETTE| ==> |PALETTE[i].hex| == 7 && PALETTE[i].hex[0] == '#'
    ensures PALETTE[0] == Color("white", "#ffffff")
    ensures DEFAULT_ACTIVE == Color("black", "#000000")
  {
  }
}

=== FILE: pattern.dfy ===
/**
 * The compact pattern of public/scripts/pattern.js. Every cell colour is
 * normalised to a canonical hex and mapped to a one-letter yarn code; each row
 * becomes space-separated `<count><code>` tokens; rows are numbered from the
 * top, one line each.
 */
module Pattern {

  import opened Wrappers
  import opened Text
  import opened RunLength
  import opened HexColors

  /** The yarn code of each palette colour, keyed by canonical hex. */
  const HEX_TO_CODE: map<string, string> := map[
    "#ffffff" := "W",
    "#000000" := "K",
    "#ef4444" := "R",
    "#22c55e" := "G",
    "#3b82f6" := "B",
    "#f59e0b" := "Y",
    "#8b5cf6" := "P"
  ]

  /** The codes of the table. */
  const CODES: set<string> := {"W", "K", "R", "G", "B", "Y", "P"}

  /** The hex a colour falls back to when it cannot be normalised. */
  const FALLBACK_HEX: string := "#ffffff"

  /** The code of any colour outside the table. */
  const FALLBACK_CODE: string := "W"

  // ---------------------------------------------------------------- rgbToHex

  /** `s.match(/\d+/g)`: the maximal runs of decimal digits in `s`, left to right. */
  function DigitGroups(s: string): (groups: seq<string>)
    ensures forall k :: 0 <= k < |groups| ==> IsNumeral(groups[k])
    decreases |s|
  {
    if |s| == 0 then []
    else if IsDigit(s[0]) then
      var d := DigitRun(s);
      [d] + DigitGroups(s[|d|..])
    else DigitGroups(s[1..])
  }

  predicate NoDigits(p: string) { forall i :: 0 <= i < |p| ==> !IsDigit(p[i]) }

  /** Text without digits contributes no group. */
  lemma {:induction false} GroupsSkip(p: string, rest: string)
    requires NoDigits(p)
    ensures DigitGroups(p + rest) == DigitGroups(rest)
  {
    if |p| > 0 {
      assert (p + rest)[0] == p[0] && (p + rest)[1..] == p[1..] + rest;
      GroupsSkip(p[1..], rest);
    } else {
      assert p + rest == rest;
    }
  }

  /** A numeral followed by a non-digit (or nothing) is the next group. */
  lemma GroupsTake(d: string, rest: string)
    requires IsNumeral(d) && (|rest| == 0 || !IsDigit(rest[0]))
    ensures DigitGroups(d + rest) == [d] + DigitGroups(rest)
  {
    DigitRunOf(d, rest);
    assert (d + rest)[0] == d[0];
    assert (d + rest)[|d|..] == rest;
  }

  /**
   * `rgbToHex` of pattern.js: the first three digit groups read as numbers
   * and written as `#` and three padded hex fields. There is nothing when
   * the text has fewer than three groups, the empty text included. Any
   * further groups, such as an alpha, are ignored.
   */
  function RgbToHex(s: string): (r: Option<string>)
    ensures r.Some? <==> |DigitGroups(s)| >= 3
    ensures r.Some? ==> |r.value| >= 7 && r.value[0] == '#' && AllHexDigits(r.value[1..])
  {
    if |s| == 0 then None
    else
      var groups := DigitGroups(s);
      if |groups| < 3 then None
      else Some(HexColor(DecimalValue(groups[0]), DecimalValue(groups[1]), DecimalValue(groups[2])))
  }

  /**
   * The colour is the hex colour of the first three groups' values, whatever
   * their size: a value above 255 gives a longer field, never a clamped one.
   */
  lemma RgbToHexValue(s: string)
    requires |DigitGroups(s)| >= 3
    ensures var g := DigitGroups(s);
      RgbToHex(s) == Some(HexColor(DecimalValue(g[0]), DecimalValue(g[1]), DecimalValue(g[2])))
  {
  }

  /**
   * When the first three groups are bytes, the result is a seven-character
   * colour whose digit pairs read back as those three numbers.
   */
  lemma RgbToHexReadsGroups(s: string)
    requires |DigitGroups(s)| >= 3
    requires forall k :: 0 <= k < 3 ==> DecimalValue(DigitGroups(s)[k]) <= 255
    ensures var g := DigitGroups(s);
      && RgbToHex(s).Some?
      && IsHexColorOf(RgbToHex(s).value, DecimalValue(g[0]), DecimalValue(g[1]), DecimalValue(g[2]))
  {
    var g := DigitGroups(s);
    HexColorBytes(DecimalValue(g[0]), DecimalValue(g[1]), DecimalValue(g[2]));
  }

  // ---------------------------------------------------------------- normalizeHex

  lemma LowerHasNoUpper(s: string)
    ensures NoUpper(ToLower(s))
  {
  }

  lemma HexHasNoUpper(s: string)
    requires |s| >= 1 && s[0] == '#' && AllHexDigits(s[1..])
    ensures NoUpper(s)
  {
    forall i | 1 <= i < |s|
      ensures !('A' <= s[i] <= 'Z')
    {
      assert s[i] == s[1..][i - 1];
    }
  }

  /**
   * The choice `normalizeHex` makes on its trimmed, lower-cased text: the
   * text itself when it is `#` and six more characters, its `rgbToHex`
   * reading when it starts with `rgb`, and nothing otherwise.
   */
  function Canonical(t: string): (r: Option<string>)
    ensures r.Some? ==> |r.value| >= 7 && r.value[0] == '#'
    ensures r.Some? ==> r.value == t || AllHexDigits(r.value[1..])
  {
    if StartsWith(t, "#") && |t| == 7 then Some(t)
    else if StartsWith(t, "rgb") then RgbToHex(t)
    else None
  }

  /**
   * `normalizeHex`: nothing for the empty string, otherwise the canonical
   * form of the trimmed, lower-cased text.
   */
  function NormalizeHex(s: string): (r: Option<string>)
    ensures |s| == 0 ==> r.None?
    ensures r.Some? ==> |r.value| >= 7 && r.value[0] == '#'
  {
    if |s| == 0 then None else Canonical(ToLower(Trim(s)))
  }

  lemma NormalizeUnfolds(s: string)
    requires |s| > 0
    ensures NormalizeHex(s) == Canonical(ToLower(Trim(s)))
  {
  }

  /**
   * Exactly two kinds of text normalise: `#` and six more characters, or
   * `rgb...` with at least three digit groups, once trimmed and lower-cased.
   */
  lemma NormalizeAccepts(s: string)
    ensures var t := ToLower(Trim(s));
      NormalizeHex(s).Some? <==>
        |s| > 0 && ((StartsWith(t, "#") && |t| == 7) || (StartsWith(t, "rgb") && |DigitGroups(t)| >= 3))
  {
    if |s| > 0 {
      NormalizeUnfolds(s);
    }
  }

  /** Colour names, short hexes and other notations normalise to nothing. */
  lemma NormalizeRejects(s: string)
    requires var t := ToLower(Trim(s)); !(StartsWith(t, "#") && |t| == 7) && !StartsWith(t, "rgb")
    ensures NormalizeHex(s).None?
  {
    NormalizeAccepts(s);
  }

  lemma LowerKeepsSpace(ch: char)
    ensures IsSpace(LowerChar(ch)) <==> IsSpace(ch)
  {
  }

  lemma LowerOfUpper(s: string)
    requires NoUpper(s)
    ensures ToLower(ToUpper(s)) == s
  {
  }

  lemma {:induction false} TrimStartOf(w: string, x: string)
    requires AllSpaces(w) && (|x| == 0 || !IsSpace(x[0]))
    ensures TrimStart(w + x) == x
  {
    if |w| > 0 {
      assert (w + x)[0] == w[0] && (w + x)[1..] == w[1..] + x;
      TrimStartOf(w[1..], x);
    } else {
      assert w + x == x;
    }
  }

  lemma {:induction false} TrimEndOf(x: string, w: string)
    requires AllSpaces(w) && (|x| == 0 || !IsSpace(x[|x| - 1]))
    ensures TrimEnd(x + w) == x
  {
    if |w| > 0 {
      assert (x + w)[|x + w| - 1] == w[|w| - 1];
      assert (x + w)[..|x + w| - 1] == x + w[..|w| - 1];
      TrimEndOf(x, w[..|w| - 1]);
    } else {
      assert x + w == x;
    }
  }

  /** Trimming strips exactly the white space padding a text that has none at its edges. */
  lemma TrimPadded(w1: string, x: string, w2: string)
    requires AllSpaces(w1) && AllSpaces(w2)
    requires |x| > 0 && !IsSpace(x[0]) && !IsSpace(x[|x| - 1])
    ensures Trim(w1 + x + w2) == x
  {
    assert w1 + x + w2 == w1 + (x + w2);
    assert (x + w2)[0] == x[0];
    TrimStartOf(w1, x + w2);
    TrimEndOf(x, w2);
  }

  /**
   * Any white-space padding and any letter case of `#` and six characters
   * normalises to the lower-case seven characters.
   */
  lemma NormalizePadded(w1: string, x: string, w2: string)
    requires AllSpaces(w1) && AllSpaces(w2)
    requires |x| == 7 && x[0] == '#' && !IsSpace(x[6])
    ensures NormalizeHex(w1 + x + w2) == Some(ToLower(x))
  {
    TrimPadded(w1, x, w2);
    NormalizeUnfolds(w1 + x + w2);
    assert ToLower(x)[..1] == "#";
  }

  /**
   * A `#` text with at least seven characters, no upper-case letter and no
   * white space at its end is a fixed point of normalising when it has
   * exactly seven characters, and normalises to nothing when longer.
   */
  lemma NormalizeFixed(h: string)
    requires |h| >= 7 && h[0] == '#' && NoUpper(h) && !IsSpace(h[|h| - 1])
    ensures NormalizeHex(h) == if |h| == 7 then Some(h) else None
  {
    assert Trim(h) == h;
    LowerOfNoUpper(h);
    NormalizeUnfolds(h);
    CanonicalOfHash(h);
  }

  lemma CanonicalOfHash(h: string)
    requires |h| >= 7 && h[0] == '#'
    ensures Canonical(h) == if |h| == 7 then Some(h) else None
  {
    assert StartsWith(h, "#") by {
      assert h[..1] == [h[0]];
    }
    assert !StartsWith(h, "rgb") by {
      assert h[..3][0] == '#';
    }
  }

  lemma CanonicalOfRgb(t: string)
    requires StartsWith(t, "rgb")
    ensures Canonical(t) == RgbToHex(t)
  {
    assert !StartsWith(t, "#") by {
      assert t[..1][0] == 'r';
    }
  }

  /**
   * Any text whose trimmed, lower-cased form starts with `rgb` is read by
   * `rgbToHex` in that form, whatever white space or case it came with;
   * text already trimmed and lower-case goes to `rgbToHex` as it is.
   */
  lemma NormalizeRgb(s: string)
    requires StartsWith(ToLower(Trim(s)), "rgb")
    ensures NormalizeHex(s) == RgbToHex(ToLower(Trim(s)))
    ensures !IsSpace(s[0]) && !IsSpace(s[|s| - 1]) && NoUpper(s) ==> NormalizeHex(s) == RgbToHex(s)
  {
    NormalizeUnfolds(s);
    CanonicalOfRgb(ToLower(Trim(s)));
    if !IsSpace(s[0]) && !IsSpace(s[|s| - 1]) && NoUpper(s) {
      PlainText(s);
    }
  }

  /**
   * A normalised colour is in canonical form: no upper-case letter and no
   * white space at its end.
   */
  lemma NormalizedForm(s: string)
    requires NormalizeHex(s).Some?
    ensures var h := NormalizeHex(s).value; NoUpper(h) && !IsSpace(h[|h| - 1])
  {
    var t := ToLower(Trim(s));
    NormalizeUnfolds(s);
    var h := Canonical(t).value;
    if AllHexDigits(h[1..]) {
      HexForm(h);
    } else {
      LowerForm(Trim(s));
    }
  }

  lemma LowerForm(u: string)
    ensures NoUpper(ToLower(u))
    ensures |u| > 0 && !IsSpace(u[|u| - 1]) ==> !IsSpace(ToLower(u)[|u| - 1])
  {
    LowerHasNoUpper(u);
    if |u| > 0 {
      LowerKeepsSpace(u[|u| - 1]);
    }
  }

  lemma HexForm(h: string)
    requires |h| >= 2 && h[0] == '#' && AllHexDigits(h[1..])
    ensures NoUpper(h) && !IsSpace(h[|h| - 1])
  {
    HexHasNoUpper(h);
    HexDigitNotSpace(h[1..][|h| - 2]);
  }

  lemma HexDigitNotSpace(ch: char)
    requires IsHexDigit(ch)
    ensures !IsSpace(ch)
  {
  }

  /**
   * Normalising is idempotent on seven-character results. A longer result
   * comes from an `rgb` component above 255, and normalising it again gives
   * nothing.
   */
  lemma NormalizeIdempotent(s: string)
    requires NormalizeHex(s).Some?
    ensures var h := NormalizeHex(s).value;
      NormalizeHex(h) == if |h| == 7 then Some(h) else None
  {
    NormalizedForm(s);
    NormalizeFixed(NormalizeHex(s).value);
  }

  // ---------------------------------------------------------------- codeFromColor

  /**
   * `codeFromColor`: the code of the normalised colour, where a colour that
   * does not normalise counts as white and a hex outside the table gets `W`.
   * Only white itself gets `W` from the table, so any other code means the
   * colour normalised to that code's table entry.
   */
  function CodeFromColor(color: string): (code: string)
    ensures code in CODES
    ensures code != FALLBACK_CODE <==>
      NormalizeHex(color).Some? && NormalizeHex(color).value in HEX_TO_CODE && NormalizeHex(color).value != FALLBACK_HEX
    ensures code != FALLBACK_CODE ==> code == HEX_TO_CODE[NormalizeHex(color).value]
  {
    var hex := NormalizeHex(color).GetOr(FALLBACK_HEX);
    TableCodes();
    if hex in HEX_TO_CODE then HEX_TO_CODE[hex] else FALLBACK_CODE
  }

  /** A key of the table is canonical: `#` and six lower-case hex digits. */
  lemma TableKey(h: string)
    requires h in HEX_TO_CODE
    ensures |h| == 7 && h[0] == '#' && NoUpper(h) && !IsSpace(h[6])
  {
    assert h in {"#ffffff", "#000000", "#ef4444", "#22c55e", "#3b82f6", "#f59e0b", "#8b5cf6"};
    assert |h| == 7 && h[0] == '#' && AllHexDigits(h[1..]);
    HexForm(h);
  }

  /** Every code the table gives is one of the seven, and only white gets `W`. */
  lemma TableCodes()
    ensures forall h :: h in HEX_TO_CODE ==> HEX_TO_CODE[h] in CODES
    ensures forall h :: h in HEX_TO_CODE ==> (HEX_TO_CODE[h] == FALLBACK_CODE <==> h == FALLBACK_HEX)
    ensures FALLBACK_CODE in CODES
    ensures forall c :: c in CODES ==> IsCode(c)
  {
    forall h | h in HEX_TO_CODE
      ensures HEX_TO_CODE[h] in CODES
      ensures HEX_TO_CODE[h] == FALLBACK_CODE <==> h == FALLBACK_HEX
    {
      if h == "#ffffff" {
      } else if h == "#000000" {
      } else if h == "#ef4444" {
      } else if h == "#22c55e" {
      } else if h == "#3b82f6" {
      } else if h == "#f59e0b" {
      } else {
        assert h == "#8b5cf6";
      }
    }
  }

  /** Each table colour, with any white-space padding, gets its own code. */
  lemma CodeOfTableColor(w1: string, h: string, w2: string)
    requires h in HEX_TO_CODE && AllSpaces(w1) && AllSpaces(w2)
    ensures CodeFromColor(w1 + h + w2) == HEX_TO_CODE[h]
  {
    TableKey(h);
    NormalizePadded(w1, h, w2);
    LowerOfNoUpper(h);
  }

  lemma UpperKey(h: string)
    requires |h| == 7 && h[0] == '#' && NoUpper(h) && !IsSpace(h[6])
    ensures var x := ToUpper(h); |x| == 7 && x[0] == '#' && !IsSpace(x[6]) && ToLower(x) == h
  {
    LowerOfUpper(h);
  }

  /** Each table colour written in upper case, with any padding, gets its own code too. */
  lemma CodeOfUpperTableColor(w1: string, h: string, w2: string)
    requires h in HEX_TO_CODE && AllSpaces(w1) && AllSpaces(w2)
    ensures CodeFromColor(w1 + ToUpper(h) + w2) == HEX_TO_CODE[h]
  {
    TableKey(h);
    UpperKey(h);
    NormalizePadded(w1, ToUpper(h), w2);
  }

  /**
   * The cell-to-code mapping `exportCodeGridFromDOM` applies to each row it
   * reads: the grid keeps its shape and every colour becomes its code.
   */
  function CodeGrid(colors: seq<seq<string>>): (codeGrid: seq<seq<string>>)
    ensures |codeGrid| == |colors|
    ensures forall i :: 0 <= i < |colors| ==> |codeGrid[i]| == |colors[i]|
    ensures forall i, j :: 0 <= i < |colors| && 0 <= j < |colors[i]| ==> codeGrid[i][j] == CodeFromColor(colors[i][j])
    ensures IsCodeGrid(codeGrid)
  {
    TableCodes();
    seq(|colors|, i requires 0 <= i < |colors| =>
      seq(|colors[i]|, j requires 0 <= j < |colors[i]| => CodeFromColor(colors[i][j])))
  }

  /**
   * Whatever colours a grid holds, its compact pattern reads back as exactly
   * the grid of their codes.
   */
  lemma ColorsRoundTrip(colors: seq<seq<string>>)
    ensures ReadPattern(BuildPatternText(CodeGrid(colors))) == Some(CodeGrid(colors))
  {
    PatternRoundTrip(CodeGrid(colors));
  }

  // ---------------------------------------------------------------- rleRow

  /** One run as `rleRow` prints it: the count, then the code. */
  function Token(run: Run<string>): string
  {
    Decimal(run.count) + run.value
  }

  function Tokens(runs: seq<Run<string>>): (toks: seq<string>)
    ensures |toks| == |runs|
    ensures forall k :: 0 <= k < |runs| ==> toks[k] == Token(runs[k])
  {
    seq(|runs|, k requires 0 <= k < |runs| => Token(runs[k]))
  }

  /**
   * `rleRow`: the tokens of the row's maximal runs joined by single spaces;
   * the empty row gives the empty text and any other row a non-empty one.
   */
  function RleRow(codes: seq<string>): (text: string)
    ensures |text| == 0 <==> |codes| == 0
  {
    if |codes| == 0 then ""
    else
      var toks := Tokens(Rle(codes));
      assert |toks[0]| >= 1;
      Join(toks, " ")
  }

  /** A code the compact text carries unambiguously: one character, not a digit, space or line break. */
  predicate IsCode(code: string)
  {
    |code| == 1 && !IsDigit(code[0]) && code[0] != ' ' && code[0] != '\n'
  }

  /** Reads one `<count><code>` token. */
  function ReadToken(tok: string): Option<Run<string>>
  {
    if |tok| < 2 then None
    else
      var count, code := tok[..|tok| - 1], tok[|tok| - 1..];
      if AllDigits(count) && IsCode(code) then Some(Run(DecimalValue(count), code)) else None
  }

  function ReadTokens(toks: seq<string>): Option<seq<Run<string>>>
  {
    if |toks| == 0 then Some([])
    else
      match ReadToken(toks[0])
      case None => None
      case Some(run) =>
        match ReadTokens(toks[1..])
        case None => None
        case Some(runs) => Some([run] + runs)
  }

  /** Reads a row back from its compact text: the empty text is the empty row. */
  function ReadRow(text: string): Option<seq<string>>
  {
    if |text| == 0 then Some([])
    else
      match ReadTokens(Split(text, ' '))
      case None => None
      case Some(runs) => Some(Expand(runs))
  }

  lemma ReadTokenOf(run: Run<string>)
    requires IsCode(run.value)
    ensures ReadToken(Token(run)) == Some(run)
  {
    var d := Decimal(run.count);
    var tok := Token(run);
    assert tok[..|tok| - 1] == d && tok[|tok| - 1..] == run.value;
  }

  lemma {:induction false} ReadTokensOf(runs: seq<Run<string>>)
    requires forall k :: 0 <= k < |runs| ==> IsCode(runs[k].value)
    ensures ReadTokens(Tokens(runs)) == Some(runs)
  {
    if |runs| > 0 {
      ReadTokenOf(runs[0]);
      assert Tokens(runs)[1..] == Tokens(runs[1..]);
      ReadTokensOf(runs[1..]);
      assert [runs[0]] + runs[1..] == runs;
    }
  }

  /** A token of a code holds no space and no line break. */
  lemma TokenAvoids(run: Run<string>)
    requires IsCode(run.value)
    ensures ' ' !in Token(run) && '\n' !in Token(run)
  {
    var d := Decimal(run.count);
    assert forall i :: 0 <= i < |d| ==> IsDigit(d[i]);
  }

  predicate AllCodes(codes: seq<string>) { forall i :: 0 <= i < |codes| ==> IsCode(codes[i]) }

  lemma RunsAreCodes(codes: seq<string>)
    requires AllCodes(codes)
    ensures forall k :: 0 <= k < |Rle(codes)| ==> IsCode(Rle(codes)[k].value)
  {
    var runs := Rle(codes);
    forall k | 0 <= k < |runs|
      ensures IsCode(runs[k].value)
    {
      ValueOfRun(runs, k);
    }
  }

  /**
   * The tokens of a non-empty row are its maximal runs, one token per run:
   * every count is at least 1, neighbouring tokens carry different codes,
   * and the runs spell out the row.
   */
  lemma RleRowTokens(codes: seq<string>)
    requires AllCodes(codes) && |codes| > 0
    ensures ReadTokens(Split(RleRow(codes), ' ')) == Some(Rle(codes))
    ensures Maximal(Rle(codes)) && Expand(Rle(codes)) == codes
  {
    var runs := Rle(codes);
    var toks := Tokens(runs);
    RunsAreCodes(codes);
    forall k | 0 <= k < |toks|
      ensures ' ' !in toks[k]
    {
      TokenAvoids(runs[k]);
    }
    SplitJoin(toks, ' ');
    ReadTokensOf(runs);
  }

  /** Two whites then a black: one token per run, counts first. */
  lemma RleRowExample()
    ensures RleRow(["W", "W", "K"]) == "2W 1K"
  {
    var codes := ["W", "W", "K"];
    assert Rle(codes) == [Run(2, "W"), Run(1, "K")] by {
      assert Expand([Run(2, "W"), Run(1, "K")]) == codes;
      MaximalUnique(Rle(codes), [Run(2, "W"), Run(1, "K")]);
    }
  }

  /** A row of codes is read back from its compact text exactly. */
  lemma RleRowRoundTrip(codes: seq<string>)
    requires AllCodes(codes)
    ensures ReadRow(RleRow(codes)) == Some(codes)
  {
    if |codes| > 0 {
      RleRowTokens(codes);
    }
  }

  /** The compact text of a row of codes holds no line break. */
  lemma RleRowUnbroken(codes: seq<string>)
    requires AllCodes(codes)
    ensures '\n' !in RleRow(codes)
  {
    if |codes| > 0 {
      var runs := Rle(codes);
      var toks := Tokens(runs);
      RunsAreCodes(codes);
      forall k | 0 <= k < |toks|
        ensures '\n' !in toks[k]
      {
        TokenAvoids(runs[k]);
      }
      JoinAvoids(toks, " ", '\n');
    }
  }

  // ---------------------------------------------------------------- buildPatternText

  /** The prefix of line `i`: `Row `, the 1-based row number, `: `. */
  function RowLabel(i: nat): string
  {
    "Row " + Decimal(i + 1) + ": "
  }

  function PatternLine(codeGrid: seq<seq<string>>, i: nat): string
    requires i < |codeGrid|
  {
    RowLabel(i) + RleRow(codeGrid[i])
  }

  function PatternLines(codeGrid: seq<seq<string>>): (lines: seq<string>)
    ensures |lines| == |codeGrid|
    ensures forall i :: 0 <= i < |codeGrid| ==> lines[i] == PatternLine(codeGrid, i)
  {
    seq(|codeGrid|, i requires 0 <= i < |codeGrid| => PatternLine(codeGrid, i))
  }

  /** `buildPatternText`: one line per grid row, top row first, joined by line breaks. */
  function BuildPatternText(codeGrid: seq<seq<string>>): (text: string)
    ensures |text| == 0 <==> |codeGrid| == 0
  {
    var lines := PatternLines(codeGrid);
    assert |codeGrid| > 0 ==> |lines[0]| >= 1 by {
      if |codeGrid| > 0 { assert |RowLabel(0)| >= 1; }
    }
    Join(lines, "\n")
  }

  predicate IsCodeGrid(codeGrid: seq<seq<string>>)
  {
    forall i :: 0 <= i < |codeGrid| ==> AllCodes(codeGrid[i])
  }

  lemma RowLabelUnbroken(i: nat)
    ensures '\n' !in RowLabel(i)
  {
    var d := Decimal(i + 1);
    assert forall j :: 0 <= j < |d| ==> IsDigit(d[j]);
  }

  lemma LinesUnbroken(codeGrid: seq<seq<string>>)
    requires IsCodeGrid(codeGrid)
    ensures forall i :: 0 <= i < |codeGrid| ==> '\n' !in PatternLines(codeGrid)[i]
  {
    forall i | 0 <= i < |codeGrid|
      ensures '\n' !in PatternLine(codeGrid, i)
    {
      RowLabelUnbroken(i);
      RleRowUnbroken(codeGrid[i]);
    }
  }

  /**
   * The pattern text of a grid of codes has one line per row, top row first
   * and none reversed: line `i` is `Row i+1: ` and the row's compact text. A
   * grid without rows gives the empty text.
   */
  lemma PatternTextLines(codeGrid: seq<seq<string>>)
    requires IsCodeGrid(codeGrid)
    ensures |codeGrid| == 0 ==> BuildPatternText(codeGrid) == ""
    ensures |codeGrid| > 0 ==>
      var lines := Split(BuildPatternText(codeGrid), '\n');
      && |lines| == |codeGrid|
      && forall i :: 0 <= i < |lines| ==> lines[i] == "Row " + Decimal(i + 1) + ": " + RleRow(codeGrid[i])
  {
    if |codeGrid| > 0 {
      LinesUnbroken(codeGrid);
      SplitJoin(PatternLines(codeGrid), '\n');
    }
  }

  // ---------------------------------------------------------------- reading a pattern back

  /** Reads lines numbered from `i + 1` on, each `Row <n>: ` and a row's compact text. */
  function ReadLines(lines: seq<string>, i: nat): Option<seq<seq<string>>>
    decreases |lines|
  {
    if |lines| == 0 then Some([])
    else
      var prefix := RowLabel(i);
      if !StartsWith(lines[0], prefix) then None
      else
        match ReadRow(lines[0][|prefix|..])
        case None => None
        case Some(row) =>
          match ReadLines(lines[1..], i + 1)
          case None => None
          case Some(rest) => Some([row] + rest)
  }

  /** Reads a whole pattern back: the empty text is the grid without rows. */
  function ReadPattern(text: string): Option<seq<seq<string>>>
  {
    if |text| == 0 then Some([]) else ReadLines(Split(text, '\n'), 0)
  }

  /** `line` is numbered `i + 1` and carries `row`. */
  predicate LineHolds(line: string, i: nat, row: seq<string>)
  {
    StartsWith(line, RowLabel(i)) && ReadRow(line[|RowLabel(i)|..]) == Some(row)
  }

  lemma LineReads(codeGrid: seq<seq<string>>, i: nat)
    requires i < |codeGrid| && AllCodes(codeGrid[i])
    ensures LineHolds(PatternLine(codeGrid, i), i, codeGrid[i])
  {
    var prefix, body := RowLabel(i), RleRow(codeGrid[i]);
    assert (prefix + body)[..|prefix|] == prefix && (prefix + body)[|prefix|..] == body;
    RleRowRoundTrip(codeGrid[i]);
  }

  lemma ReadLinesCons(lines: seq<string>, i: nat, row: seq<string>, rest: seq<seq<string>>)
    requires |lines| > 0 && LineHolds(lines[0], i, row)
    requires ReadLines(lines[1..], i + 1) == Some(rest)
    ensures ReadLines(lines, i) == Some([row] + rest)
  {
  }

  lemma {:induction false} ReadLinesOf(lines: seq<string>, rows: seq<seq<string>>, i: nat)
    requires |lines| == |rows|
    requires forall k :: 0 <= k < |lines| ==> LineHolds(lines[k], i + k, rows[k])
    ensures ReadLines(lines, i) == Some(rows)
  {
    if |lines| > 0 {
      assert LineHolds(lines[0], i + 0, rows[0]);
      forall k | 0 <= k < |lines| - 1
        ensures LineHolds(lines[1..][k], i + 1 + k, rows[1..][k])
      {
        assert LineHolds(lines[k + 1], i + (k + 1), rows[k + 1]);
      }
      ReadLinesOf(lines[1..], rows[1..], i + 1);
      ReadLinesCons(lines, i, rows[0], rows[1..]);
      assert rows == [rows[0]] + rows[1..];
    }
  }

  /** The lines of a grid's pattern read back as its rows. */
  lemma PatternLinesRead(codeGrid: seq<seq<string>>)
    requires IsCodeGrid(codeGrid)
    ensures ReadLines(PatternLines(codeGrid), 0) == Some(codeGrid)
  {
    var lines := PatternLines(codeGrid);
    forall k | 0 <= k < |lines|
      ensures LineHolds(lines[k], 0 + k, codeGrid[k])
    {
      LineReads(codeGrid, k);
    }
    ReadLinesOf(lines, codeGrid, 0);
  }

  lemma SplitPattern(codeGrid: seq<seq<string>>)
    requires IsCodeGrid(codeGrid) && |codeGrid| > 0
    ensures Split(BuildPatternText(codeGrid), '\n') == PatternLines(codeGrid)
  {
    LinesUnbroken(codeGrid);
    SplitJoin(PatternLines(codeGrid), '\n');
  }

  /** A grid of codes is read back from its pattern text exactly. */
  lemma PatternRoundTrip(codeGrid: seq<seq<string>>)
    requires IsCodeGrid(codeGrid)
    ensures ReadPattern(BuildPatternText(codeGrid)) == Some(codeGrid)
  {
    if |codeGrid| > 0 {
      SplitPattern(codeGrid);
      PatternLinesRead(codeGrid);
    }
  }
}

=== FILE: runlength.dfy ===
/**
 * Run-length encoding of a sequence: `rle` in instructions.js and the run
 * scan inside `rleRow` in public/scripts/pattern.js are the same loop, which
 * collapses each stretch of equal neighbours into a (count, value) pair.
 */
module RunLength {

  datatype Run<T> = Run(count: nat, value: T)

  function Repeat<T>(x: T, n: nat): (xs: seq<T>)
    ensures |xs| == n
    ensures forall i :: 0 <= i < n ==> xs[i] == x
  {
    seq(n, _ => x)
  }

  /** The sequence a list of runs stands for, runs laid end to end in order. */
  function Expand<T>(runs: seq<Run<T>>): seq<T>
  {
    if |runs| == 0 then [] else Repeat(runs[0].value, runs[0].count) + Expand(runs[1..])
  }

  /** Sum of the run counts. */
  function Total<T>(runs: seq<Run<T>>): nat
  {
    if |runs| == 0 then 0 else runs[0].count + Total(runs[1..])
  }

  /**
   * No run is empty and no two neighbouring runs carry the same value, so no
   * pair of runs could be merged.
   */
  ghost predicate Maximal<T>(runs: seq<Run<T>>)
  {
    && (forall i :: 0 <= i < |runs| ==> runs[i].count >= 1)
    && (forall i, j :: 0 <= i && j == i + 1 && j < |runs| ==> runs[i].value != runs[j].value)
  }

  /**
   * The loop of the encoders: it has scanned `xs[..i]`, closed the runs in
   * `acc`, and is counting `count` copies of `prev`.
   */
  function Scan<T(==)>(xs: seq<T>, i: nat, prev: T, count: nat, acc: seq<Run<T>>): (runs: seq<Run<T>>)
    requires 1 <= count <= i <= |xs|
    requires Expand(acc) + Repeat(prev, count) == xs[..i]
    requires Maximal(acc)
    requires |acc| > 0 ==> acc[|acc| - 1].value != prev
    ensures Expand(runs) == xs
    ensures Maximal(runs) && |runs| > 0
    decreases |xs| - i
  {
    if i == |xs| then
      ExpandSnoc(acc, Run(count, prev));
      assert xs[..i] == xs;
      acc + [Run(count, prev)]
    else if xs[i] == prev then
      assert Repeat(prev, count + 1) == Repeat(prev, count) + [prev];
      assert xs[..i + 1] == xs[..i] + [xs[i]];
      Scan(xs, i + 1, prev, count + 1, acc)
    else
      ExpandSnoc(acc, Run(count, prev));
      assert xs[..i + 1] == xs[..i] + [xs[i]];
      Scan(xs, i + 1, xs[i], 1, acc + [Run(count, prev)])
  }

  /**
   * The runs of `xs`: none for the empty sequence, otherwise a maximal list
   * of runs whose expansion is exactly `xs`.
   */
  function Rle<T(==)>(xs: seq<T>): (runs: seq<Run<T>>)
    ensures Expand(runs) == xs
    ensures Maximal(runs)
    ensures |runs| == 0 <==> |xs| == 0
  {
    if |xs| == 0 then []
    else
      assert xs[..1] == Repeat(xs[0], 1);
      Scan(xs, 1, xs[0], 1, [])
  }

  // ---------------------------------------------------------------- facts about Expand

  lemma {:induction false} ExpandSnoc<T>(runs: seq<Run<T>>, last: Run<T>)
    ensures Expand(runs + [last]) == Expand(runs) + Repeat(last.value, last.count)
  {
    if |runs| > 0 {
      assert (runs + [last])[1..] == runs[1..] + [last];
      ExpandSnoc(runs[1..], last);
    }
  }

  lemma {:induction false} ExpandLength<T>(runs: seq<Run<T>>)
    ensures |Expand(runs)| == Total(runs)
  {
    if |runs| > 0 {
      ExpandLength(runs[1..]);
    }
  }

  lemma {:induction false} ExpandAppend<T>(a: seq<Run<T>>, b: seq<Run<T>>)
    ensures Expand(a + b) == Expand(a) + Expand(b)
  {
    if |a| > 0 {
      assert (a + b)[0] == a[0] && (a + b)[1..] == a[1..] + b;
      ExpandAppend(a[1..], b);
      var head := Repeat(a[0].value, a[0].count);
      assert Expand(a + b) == head + (Expand(a[1..]) + Expand(b));
      assert Expand(a) == head + Expand(a[1..]);
    } else {
      assert a + b == b;
    }
  }

  /** The counts of the runs of `xs` add up to the length of `xs`. */
  lemma CountsSumToLength<T>(xs: seq<T>)
    ensures Total(Rle(xs)) == |xs|
  {
    ExpandLength(Rle(xs));
  }

  /** Every value a run carries occurs in the sequence it encodes. */
  lemma {:induction false} ValueOfRun<T>(runs: seq<Run<T>>, k: int)
    requires Maximal(runs) && 0 <= k < |runs|
    ensures runs[k].value in Expand(runs)
  {
    var head := Repeat(runs[0].value, runs[0].count);
    assert Expand(runs) == head + Expand(runs[1..]);
    if k == 0 {
      assert Expand(runs)[0] == runs[0].value;
    } else {
      MaximalTail(runs);
      ValueOfRun(runs[1..], k - 1);
      assert runs[1..][k - 1] == runs[k];
    }
  }

  // ---------------------------------------------------------------- uniqueness

  /**
   * Two maximal run lists that expand to the same sequence are equal: a
   * sequence has exactly one maximal run-length encoding.
   */
  lemma {:induction false} MaximalUnique<T>(a: seq<Run<T>>, b: seq<Run<T>>)
    requires Maximal(a) && Maximal(b)
    requires Expand(a) == Expand(b)
    ensures a == b
  {
    if |a| == 0 || |b| == 0 {
      ExpandNonEmpty(a);
      ExpandNonEmpty(b);
    } else {
      var x := Expand(a);
      assert x == Repeat(a[0].value, a[0].count) + Expand(a[1..]);
      assert x == Repeat(b[0].value, b[0].count) + Expand(b[1..]);
      assert a[0].value == x[0] == b[0].value;
      if a[0].count < b[0].count {
        FirstAfterRun(a);
        assert false;
      } else if b[0].count < a[0].count {
        FirstAfterRun(b);
        assert false;
      }
      assert Expand(a[1..]) == x[a[0].count..] == Expand(b[1..]);
      MaximalTail(a);
      MaximalTail(b);
      MaximalUnique(a[1..], b[1..]);
      assert a == [a[0]] + a[1..] && b == [b[0]] + b[1..];
    }
  }

  lemma ExpandNonEmpty<T>(runs: seq<Run<T>>)
    requires Maximal(runs)
    ensures |runs| > 0 ==> |Expand(runs)| >= runs[0].count >= 1
  {
  }

  /**
   * Right after the first run ends, the expansion either stops or shows a
   * different value.
   */
  lemma FirstAfterRun<T>(runs: seq<Run<T>>)
    requires Maximal(runs) && |runs| > 0
    ensures |Expand(runs)| == runs[0].count || (|Expand(runs)| > runs[0].count && Expand(runs)[runs[0].count] != runs[0].value)
  {
    var rest := runs[1..];
    ExpandLength(runs);
    ExpandLength(rest);
    if |rest| > 0 {
      assert Expand(rest) == Repeat(rest[0].value, rest[0].count) + Expand(rest[1..]);
      assert Expand(rest)[0] == runs[1].value;
    }
  }

  lemma MaximalTail<T>(runs: seq<Run<T>>)
    requires Maximal(runs) && |runs| > 0
    ensures Maximal(runs[1..])
  {
    var t := runs[1..];
    forall i, j | 0 <= i && j == i + 1 && j < |t|
      ensures t[i].value != t[j].value
    {
      assert t[i] == runs[i + 1] && t[j] == runs[j + 1];
    }
  }

  /** Encoding the expansion of a maximal run list gives that run list back. */
  lemma RleOfExpand<T>(runs: seq<Run<T>>)
    requires Maximal(runs)
    ensures Rle(Expand(runs)) == runs
  {
    MaximalUnique(Rle(Expand(runs)), runs);
  }

  // ---------------------------------------------------------------- reversal

  function Reverse<T>(xs: seq<T>): (r: seq<T>)
    ensures |r| == |xs|
    ensures forall i :: 0 <= i < |xs| ==> r[i] == xs[|xs| - 1 - i]
  {
    if |xs| == 0 then [] else Reverse(xs[1..]) + [xs[0]]
  }

  lemma {:induction false} ReverseAppend<T>(a: seq<T>, b: seq<T>)
    ensures Reverse(a + b) == Reverse(b) + Reverse(a)
  {
    assert |Reverse(a + b)| == |Reverse(b) + Reverse(a)|;
    forall i | 0 <= i < |a| + |b|
      ensures Reverse(a + b)[i] == (Reverse(b) + Reverse(a))[i]
    {
      if i < |b| {
      } else {
      }
    }
  }

  lemma {:induction false} ExpandReverse<T>(runs: seq<Run<T>>)
    ensures Expand(Reverse(runs)) == Reverse(Expand(runs))
  {
    if |runs| > 0 {
      var head := Repeat(runs[0].value, runs[0].count);
      ExpandReverse(runs[1..]);
      ExpandSnoc(Reverse(runs[1..]), runs[0]);
      ReverseAppend(head, Expand(runs[1..]));
      assert Reverse(head) == head;
    }
  }

  lemma MaximalReverse<T>(runs: seq<Run<T>>)
    requires Maximal(runs)
    ensures Maximal(Reverse(runs))
  {
    var r := Reverse(runs);
    var n := |runs|;
    forall i, j | 0 <= i && j == i + 1 && j < n
      ensures r[i].value != r[j].value
    {
      assert r[i] == runs[n - 1 - i] && r[j] == runs[n - 1 - j];
      assert n - 1 - i == (n - 1 - j) + 1;
    }
  }

  /**
   * Reading a row backwards reads its runs backwards: the runs of the
   * reversed sequence are the runs of the sequence in reverse order.
   */
  lemma RleReverse<T>(xs: seq<T>)
    ensures Rle(Reverse(xs)) == Reverse(Rle(xs))
  {
    var runs := Rle(xs);
    ExpandReverse(runs);
    MaximalReverse(runs);
    MaximalUnique(Rle(Reverse(xs)), Reverse(runs));
  }
}

=== FILE: stroke.dfy ===
/**
 * The painting state machine of public/scripts/grid.js. A stroke starts on
 * mouse-down, locks to a row or a column on the first move off its origin,
 * paints the straight run from the origin to the cursor on every accepted
 * mouse-enter, and ends on any mouse-up. Each DOM event becomes a pure
 * transition over the whole page state.
 */
module Stroke {

  import opened Grid
  import opened Palette

  /** The stroke direction; `Unlocked` is JavaScript's `axis = null`. */
  datatype Axis = Unlocked | RowAxis | ColAxis

  /**
   * `isMouseDown` together with `startRow`, `startCol` and `axis`: every
   * handler sets or clears them together, so the combinations that occur are
   * exactly these two.
   */
  datatype Pen = Idle | Stroking(startRow: int, startCol: int, axis: Axis)

  /** What the handlers read and write: the cells, `activeColor`, the pen. */
  datatype Painter = Painter(cells: Cells, active: Color, pen: Pen)

  /**
   * The state every handler keeps: a rectangular grid, a palette colour, and
   * a stroke origin with non-negative coordinates. The origin is a cell of
   * the grid when the stroke starts, but a resize during a stroke keeps it
   * while replacing the cells, so it may lie beyond the new grid's edge.
   */
  predicate Valid(p: Painter)
  {
    && Rectangular(p.cells)
    && p.active in PALETTE
    && (p.pen.Stroking? ==> 0 <= p.pen.startRow && 0 <= p.pen.startCol)
  }

  /** Whether cell (i, j) lies on the line a stroke in pen state `pen` may paint. */
  predicate OnLine(pen: Pen, i: int, j: int)
  {
    match pen
    case Idle => false
    case Stroking(sr, sc, axis) =>
      match axis
      case Unlocked => i == sr && j == sc
      case RowAxis => i == sr
      case ColAxis => j == sc
  }

  /** The page after load: `buildGrid(10, 10)`, black active, no stroke. */
  function Init(): (p: Painter)
    ensures Valid(p) && p.pen == Idle && p.active == DEFAULT_ACTIVE
    ensures |p.cells| == 10
    ensures forall r :: 0 <= r < 10 ==> |p.cells[r]| == 10
    ensures forall r, c :: 0 <= r < 10 && 0 <= c < 10 ==> p.cells[r][c] == BACKGROUND
  {
    Painter(Blank(10, 10), DEFAULT_ACTIVE, Idle)
  }

  /** A click on swatch `i`: the only event that changes the active colour. */
  function SelectColor(p: Painter, i: int): (q: Painter)
    requires Valid(p) && 0 <= i < |PALETTE|
    ensures Valid(q)
    ensures q.active == PALETTE[i]
    ensures q.cells == p.cells && q.pen == p.pen
  {
    p.(active := PALETTE[i])
  }

  /**
   * Mouse-down on cell (r, c): a new stroke with its origin there and no
   * axis, whatever the pen was, and the origin painted with the active colour.
   */
  function MouseDown(p: Painter, r: int, c: int): (q: Painter)
    requires Valid(p) && InBounds(p.cells, r, c)
    ensures Valid(q) && q.active == p.active
    ensures q.pen == Stroking(r, c, Unlocked)
    ensures SameShape(p.cells, q.cells)
    ensures q.cells[r][c] == p.active.hex
    ensures forall i, j :: InBounds(p.cells, i, j) && (i != r || j != c) ==> q.cells[i][j] == p.cells[i][j]
  {
    Painter(SetCell(p.cells, r, c, p.active.hex), p.active, Stroking(r, c, Unlocked))
  }

  /** The document-wide mouse-up: back to idle from any state, nothing repainted. */
  function MouseUp(p: Painter): (q: Painter)
    ensures q.pen == Idle
    ensures q.cells == p.cells && q.active == p.active
    ensures Rectangular(p.cells) && p.active in PALETTE ==> Valid(q)
  {
    p.(pen := Idle)
  }

  /**
   * `paintSegmentTo(r, c)`: the inclusive run between the origin and the
   * cursor along the locked axis, whichever way the cursor went. The loop
   * counts up from the smaller end; when a resize has left the origin beyond
   * the grid's edge, `cells[...]` comes back `undefined` at the first index
   * past the edge and the handler stops with a `TypeError`, so exactly the
   * part of the run inside the grid is painted.
   */
  function PaintSegment(g: Cells, pen: Pen, hex: string, r: int, c: int): (h: Cells)
    requires Rectangular(g) && pen.Stroking? && 0 <= pen.startRow && 0 <= pen.startCol
    requires InBounds(g, r, c)
    ensures SameShape(g, h)
    ensures pen.axis == Unlocked ==> h == g
    ensures forall i, j :: InBounds(g, i, j) && h[i][j] != g[i][j] ==> h[i][j] == hex && OnLine(pen, i, j)
    ensures pen.axis != Unlocked && OnLine(pen, r, c) ==>
              h[r][c] == hex && (InBounds(g, pen.startRow, pen.startCol) ==> h[pen.startRow][pen.startCol] == hex)
  {
    var (sr, sc) := (pen.startRow, pen.startCol);
    match pen.axis
    case RowAxis =>
      if sr >= |g| then g
      else PaintCols(g, sr, Min(sc, c), Min(Max(sc, c), |g[sr]| - 1), hex)
    case ColAxis =>
      if sc >= |g[Min(sr, r)]| then g
      else PaintRows(g, sc, Min(sr, r), Min(Max(sr, r), |g| - 1), hex)
    case Unlocked => g
  }

  /**
   * `handleEnter` for cell (r, c). Ignored while idle. With no axis yet, a
   * move along the origin's row or column locks that axis; anything else
   * (the origin itself, a diagonal) is ignored. With an axis, a cell off it
   * is ignored; otherwise the run from the origin to (r, c) is painted.
   *
   * Whatever happens, the axis once locked stays locked, the origin stays
   * put, and every cell that changes takes the active colour and lies on the
   * stroke's line.
   */
  function Enter(p: Painter, r: int, c: int): (q: Painter)
    requires Valid(p) && InBounds(p.cells, r, c)
    ensures Valid(q) && q.active == p.active
    ensures SameShape(p.cells, q.cells)
    ensures p.pen.Idle? ==> q == p
    ensures p.pen.Stroking? ==> q.pen.Stroking? && q.pen.startRow == p.pen.startRow && q.pen.startCol == p.pen.startCol
    ensures p.pen.Stroking? && p.pen.axis != Unlocked ==> q.pen.axis == p.pen.axis
    ensures forall i, j :: InBounds(p.cells, i, j) && q.cells[i][j] != p.cells[i][j] ==>
              q.cells[i][j] == p.active.hex && OnLine(q.pen, i, j)
  {
    match p.pen
    case Idle => p
    case Stroking(sr, sc, axis) =>
      var locked :=
        if axis != Unlocked then axis
        else if r == sr && c != sc then RowAxis
        else if c == sc && r != sr then ColAxis
        else Unlocked;
      if locked == Unlocked then p
      else
        var pen := Stroking(sr, sc, locked);
        if (locked == RowAxis && r != sr) || (locked == ColAxis && c != sc) then p.(pen := pen)
        else p.(cells := PaintSegment(p.cells, pen, p.active.hex, r, c), pen := pen)
  }

  /** A run of mouse-enter events along `path`, in order. */
  function Drag(p: Painter, path: seq<(int, int)>): (q: Painter)
    requires Valid(p)
    requires forall k :: 0 <= k < |path| ==> InBounds(p.cells, path[k].0, path[k].1)
    ensures Valid(q) && q.active == p.active
    ensures SameShape(p.cells, q.cells)
    decreases |path|
  {
    if |path| == 0 then p
    else
      var p' := Enter(p, path[0].0, path[0].1);
      assert forall k :: 0 <= k < |path| - 1 ==> path[1..][k] == path[k + 1];
      Drag(p', path[1..])
  }

  /**
   * `buildGrid(rows, cols)` from the resize button: a fresh blank grid. The
   * handler leaves `activeColor` and the stroke variables as they were.
   */
  function Resize(p: Painter, rows: int, cols: int): (q: Painter)
    requires Valid(p)
    ensures q.cells == Blank(rows, cols)
    ensures q.active == p.active && q.pen == p.pen
    ensures Valid(q)
  {
    p.(cells := Blank(rows, cols))
  }

  // ---------------------------------------------------------------- one event at a time

  /** While no button is held, mouse-enter changes nothing. */
  lemma EnterWhileIdle(p: Painter, r: int, c: int)
    requires Valid(p) && InBounds(p.cells, r, c) && p.pen == Idle
    ensures Enter(p, r, c) == p
  {
  }

  /**
   * With no axis yet: the origin's row (another column) locks the row axis,
   * the origin's column (another row) locks the column axis, and the origin
   * itself or a diagonal cell leaves the state exactly as it was.
   */
  lemma EnterLocksAxis(p: Painter, r: int, c: int)
    requires Valid(p) && InBounds(p.cells, r, c)
    requires p.pen.Stroking? && p.pen.axis == Unlocked
    ensures r == p.pen.startRow && c != p.pen.startCol ==> Enter(p, r, c).pen.axis == RowAxis
    ensures c == p.pen.startCol && r != p.pen.startRow ==> Enter(p, r, c).pen.axis == ColAxis
    ensures (r == p.pen.startRow) == (c == p.pen.startCol) ==> Enter(p, r, c) == p
  {
  }

  /** Once locked, a cell off the axis is ignored: no paint, no state change. */
  lemma EnterOffAxisIgnored(p: Painter, r: int, c: int)
    requires Valid(p) && InBounds(p.cells, r, c) && p.pen.Stroking?
    requires (p.pen.axis == RowAxis && r != p.pen.startRow) || (p.pen.axis == ColAxis && c != p.pen.startCol)
    ensures Enter(p, r, c) == p
  {
  }

  /**
   * An accepted enter on the origin's row paints exactly the columns from
   * min(origin column, c) to max(origin column, c) of that row, and the axis
   * is (or becomes) the row axis.
   */
  lemma EnterPaintsRowRun(p: Painter, r: int, c: int)
    requires Valid(p) && InBounds(p.cells, r, c) && p.pen.Stroking?
    requires r == p.pen.startRow
    requires p.pen.axis == RowAxis || (p.pen.axis == Unlocked && c != p.pen.startCol)
    ensures var q := Enter(p, r, c);
      && q.pen == Stroking(p.pen.startRow, p.pen.startCol, RowAxis)
      && forall i, j :: InBounds(p.cells, i, j) ==>
           q.cells[i][j] == if i == r && Min(p.pen.startCol, c) <= j <= Max(p.pen.startCol, c) then p.active.hex else p.cells[i][j]
  {
  }

  /**
   * An accepted enter on the origin's column paints exactly the rows from
   * min(origin row, r) to max(origin row, r) of that column.
   */
  lemma EnterPaintsColRun(p: Painter, r: int, c: int)
    requires Valid(p) && InBounds(p.cells, r, c) && p.pen.Stroking?
    requires c == p.pen.startCol
    requires p.pen.axis == ColAxis || (p.pen.axis == Unlocked && r != p.pen.startRow)
    ensures var q := Enter(p, r, c);
      && q.pen == Stroking(p.pen.startRow, p.pen.startCol, ColAxis)
      && forall i, j :: InBounds(p.cells, i, j) ==>
           q.cells[i][j] == if j == c && Min(p.pen.startRow, r) <= i <= Max(p.pen.startRow, r) then p.active.hex else p.cells[i][j]
  {
  }

  /** After a mouse-up the machine is idle, and further mouse-enters are no-ops. */
  lemma MouseUpNeverStuck(p: Painter, r: int, c: int)
    requires Valid(p) && InBounds(p.cells, r, c)
    ensures Enter(MouseUp(p), r, c) == MouseUp(p)
    ensures MouseUp(MouseUp(p)) == MouseUp(p)
  {
  }

  /**
   * A resize during a stroke: the origin (9, 1) is past the edge of the new
   * 2 by 2 grid. Entering (0, 1) still locks the column axis, and the run
   * from row 0 towards row 9 is painted as far as the grid goes.
   */
  lemma ResizeMidStroke(p: Painter)
    requires Valid(p) && p.pen == Stroking(9, 1, Unlocked)
    ensures var q := Enter(Resize(p, 2, 2), 0, 1);
      && q.pen == Stroking(9, 1, ColAxis)
      && q.cells == [[BACKGROUND, p.active.hex], [BACKGROUND, p.active.hex]]
  {
    var b := Resize(p, 2, 2);
    assert |b.cells| == 2 && |b.cells[0]| == 2 && |b.cells[1]| == 2;
    EnterPaintsColRun(b, 0, 1);
    var q := Enter(b, 0, 1);
    assert q.cells[0] == [BACKGROUND, p.active.hex] by {
      assert q.cells[0][0] == b.cells[0][0] == BACKGROUND;
    }
    assert q.cells[1] == [BACKGROUND, p.active.hex] by {
      assert q.cells[1][0] == b.cells[1][0] == BACKGROUND;
    }
  }

  // ---------------------------------------------------------------- whole strokes

  /**
   * The stroke invariant relative to the grid `before` the stroke: the pen
   * is down, and every cell that differs from `before` holds the active
   * colour and lies on the stroke's line.
   */
  ghost predicate StrokeSince(before: Cells, p: Painter)
  {
    && p.pen.Stroking?
    && SameShape(before, p.cells)
    && forall i, j :: InBounds(before, i, j) && p.cells[i][j] != before[i][j] ==>
         p.cells[i][j] == p.active.hex && OnLine(p.pen, i, j)
  }

  lemma {:induction false} DragKeepsStroke(before: Cells, p: Painter, path: seq<(int, int)>)
    requires Valid(p)
    requires forall k :: 0 <= k < |path| ==> InBounds(p.cells, path[k].0, path[k].1)
    requires StrokeSince(before, p)
    ensures StrokeSince(before, Drag(p, path))
    ensures Drag(p, path).pen.startRow == p.pen.startRow && Drag(p, path).pen.startCol == p.pen.startCol
    decreases |path|
  {
    if |path| > 0 {
      var p' := Enter(p, path[0].0, path[0].1);
      assert StrokeSince(before, p') by {
        forall i, j | InBounds(before, i, j) && p'.cells[i][j] != before[i][j]
          ensures p'.cells[i][j] == p'.active.hex && OnLine(p'.pen, i, j)
        {
          if p'.cells[i][j] == p.cells[i][j] {
            assert OnLine(p.pen, i, j);
          }
        }
      }
      assert forall k :: 0 <= k < |path| - 1 ==> path[1..][k] == path[k + 1];
      DragKeepsStroke(before, p', path[1..]);
    }
  }

  /** A whole stroke: mouse-down on (r, c), then mouse-enters along `path`. */
  function WholeStroke(p: Painter, r: int, c: int, path: seq<(int, int)>): Painter
    requires Valid(p) && InBounds(p.cells, r, c)
    requires forall k :: 0 <= k < |path| ==> InBounds(p.cells, path[k].0, path[k].1)
  {
    var d := MouseDown(p, r, c);
    assert forall k :: 0 <= k < |path| ==> InBounds(d.cells, path[k].0, path[k].1);
    Drag(d, path)
  }

  /**
   * Whatever the cursor does during a stroke, the origin keeps the active
   * colour, and every cell the stroke changed holds the active colour and
   * lies on one straight line through the origin: the origin's row if the
   * row axis locked, its column if the column axis locked, the origin alone
   * if no axis locked.
   */
  lemma StrokeStaysOnLine(p: Painter, r: int, c: int, path: seq<(int, int)>)
    requires Valid(p) && InBounds(p.cells, r, c)
    requires forall k :: 0 <= k < |path| ==> InBounds(p.cells, path[k].0, path[k].1)
    ensures var q := WholeStroke(p, r, c, path);
      && q.pen.Stroking? && q.pen.startRow == r && q.pen.startCol == c
      && q.cells[r][c] == p.active.hex
      && forall i, j :: InBounds(p.cells, i, j) && q.cells[i][j] != p.cells[i][j] ==>
           q.cells[i][j] == p.active.hex && OnLine(q.pen, i, j)
  {
    var d := MouseDown(p, r, c);
    DragKeepsStroke(p.cells, d, path);
    // the origin holds the active colour from the mouse-down on
    DragKeepsStroke(d.cells, d, path);
  }
}

=== FILE: text.dfy ===
/**
 * The handful of JavaScript string primitives the scripts rely on, over
 * `string` (a sequence of Unicode scalar values): number formatting in base
 * 10 and 16, `padStart`, `trim`, ASCII case mapping, `join` and `split`.
 */
module Text {

  predicate IsDigit(ch: char) { '0' <= ch <= '9' }

  predicate AllDigits(s: string) { forall i :: 0 <= i < |s| ==> IsDigit(s[i]) }

  /** White space as JavaScript's `\s` class and `String.prototype.trim` see it. */
  predicate IsSpace(ch: char)
  {
    var n := ch as int;
    || (0x09 <= n <= 0x0D) || n == 0x20 || n == 0xA0 || n == 0x1680
    || (0x2000 <= n <= 0x200A) || n == 0x2028 || n == 0x2029 || n == 0x202F
    || n == 0x205F || n == 0x3000 || n == 0xFEFF
  }

  predicate AllSpaces(s: string) { forall i :: 0 <= i < |s| ==> IsSpace(s[i]) }

  predicate StartsWith(s: string, prefix: string)
  {
    |prefix| <= |s| && s[..|prefix|] == prefix
  }

  // ---------------------------------------------------------------- base 10

  function DigitChar(d: nat): (ch: char)
    requires d < 10
    ensures IsDigit(ch)
  {
    ('0' as int + d) as char
  }

  function DigitValue(ch: char): (d: nat)
    requires IsDigit(ch)
    ensures d < 10
  {
    ch as int - '0' as int
  }

  /** The value `Number(s)` gives a non-empty string of decimal digits. */
  function DecimalValue(s: string): nat
    requires AllDigits(s)
  {
    if |s| == 0 then 0 else 10 * DecimalValue(s[..|s| - 1]) + DigitValue(s[|s| - 1])
  }

  /**
   * `String(n)` for a natural number: its decimal numeral, canonical (no
   * leading zero), which reads back as `n`.
   */
  function Decimal(n: nat): (s: string)
    ensures |s| >= 1 && AllDigits(s)
    ensures s[0] == '0' ==> n == 0
    ensures DecimalValue(s) == n
  {
    if n < 10 then [DigitChar(n)]
    else
      var s := Decimal(n / 10) + [DigitChar(n % 10)];
      assert s[..|s| - 1] == Decimal(n / 10);
      s
  }

  // ---------------------------------------------------------------- digit and space runs

  /** The longest prefix of `t` made of decimal digits (what `\d+` consumes). */
  function DigitRun(t: string): (d: string)
    ensures |d| <= |t| && d == t[..|d|] && AllDigits(d)
    ensures |d| == |t| || !IsDigit(t[|d|])
  {
    if |t| > 0 && IsDigit(t[0]) then [t[0]] + DigitRun(t[1..]) else []
  }

  /** The longest prefix of `t` made of white space (what `\s*` consumes). */
  function SpaceRun(t: string): (w: string)
    ensures |w| <= |t| && w == t[..|w|] && AllSpaces(w)
    ensures |w| == |t| || !IsSpace(t[|w|])
  {
    if |t| > 0 && IsSpace(t[0]) then [t[0]] + SpaceRun(t[1..]) else []
  }

  /** A non-empty run of decimal digits, as `\d+` matches. */
  predicate IsNumeral(d: string) { |d| > 0 && AllDigits(d) }

  lemma {:induction false} DigitRunOf(d: string, rest: string)
    requires AllDigits(d) && (|rest| == 0 || !IsDigit(rest[0]))
    ensures DigitRun(d + rest) == d
  {
    if |d| > 0 {
      assert (d + rest)[0] == d[0] && (d + rest)[1..] == d[1..] + rest;
      DigitRunOf(d[1..], rest);
      assert d == [d[0]] + d[1..];
    } else {
      assert d + rest == rest;
    }
  }

  lemma {:induction false} SpaceRunOf(w: string, rest: string)
    requires AllSpaces(w) && (|rest| == 0 || !IsSpace(rest[0]))
    ensures SpaceRun(w + rest) == w
  {
    if |w| > 0 {
      assert (w + rest)[0] == w[0] && (w + rest)[1..] == w[1..] + rest;
      SpaceRunOf(w[1..], rest);
      assert w == [w[0]] + w[1..];
    } else {
      assert w + rest == rest;
    }
  }

  // ---------------------------------------------------------------- base 16

  predicate IsHexDigit(ch: char) { IsDigit(ch) || 'a' <= ch <= 'f' }

  predicate AllHexDigits(s: string) { forall i :: 0 <= i < |s| ==> IsHexDigit(s[i]) }

  function HexDigitChar(d: nat): (ch: char)
    requires d < 16
    ensures IsHexDigit(ch)
  {
    if d < 10 then DigitChar(d) else ('a' as int + d - 10) as char
  }

  function HexDigitValue(ch: char): (d: nat)
    requires IsHexDigit(ch)
    ensures d < 16
  {
    if IsDigit(ch) then DigitValue(ch) else ch as int - 'a' as int + 10
  }

  /** The number a string of lower-case hexadecimal digits denotes. */
  function HexValue(s: string): nat
    requires AllHexDigits(s)
  {
    if |s| == 0 then 0 else 16 * HexValue(s[..|s| - 1]) + HexDigitValue(s[|s| - 1])
  }

  /**
   * `n.toString(16)`: lower-case hexadecimal digits without a leading zero.
   * One digit exactly below 16, at most two exactly below 256.
   */
  function Hex(n: nat): (s: string)
    ensures |s| >= 1 && AllHexDigits(s)
    ensures HexValue(s) == n
    ensures n < 16 <==> |s| == 1
    ensures n < 256 <==> |s| <= 2
    ensures n > 0 ==> s[0] != '0'
  {
    if n < 16 then [HexDigitChar(n)]
    else
      var s := Hex(n / 16) + [HexDigitChar(n % 16)];
      assert s[..|s| - 1] == Hex(n / 16);
      s
  }

  /** `s.padStart(width, fill)` for a one-character fill. */
  function PadStart(s: string, width: nat, fill: char): string
  {
    if |s| >= width then s else seq(width - |s|, _ => fill) + s
  }

  /**
   * `n.toString(16).padStart(2, "0")`, the per-component formatting of both
   * `rgbToHex` helpers: two digits for a byte, more for anything larger, and
   * always digits that read back as `n`.
   */
  function HexByte(n: nat): (s: string)
    ensures AllHexDigits(s) && HexValue(s) == n
    ensures n <= 255 ==> |s| == 2
    ensures n > 255 ==> |s| > 2
  {
    var h := Hex(n);
    var s := PadStart(h, 2, '0');
    if |h| < 2 then
      assert s == ['0', h[0]] && s[..1] == "0";
      s
    else s
  }

  // ---------------------------------------------------------------- case and trimming

  function LowerChar(ch: char): char
  {
    if 'A' <= ch <= 'Z' then (ch as int + 32) as char else ch
  }

  function UpperChar(ch: char): char
  {
    if 'a' <= ch <= 'z' then (ch as int - 32) as char else ch
  }

  /** `toLowerCase`, restricted to the ASCII letters. */
  function ToLower(s: string): string
  {
    seq(|s|, i requires 0 <= i < |s| => LowerChar(s[i]))
  }

  /** `toUpperCase`, restricted to the ASCII letters. */
  function ToUpper(s: string): string
  {
    seq(|s|, i requires 0 <= i < |s| => UpperChar(s[i]))
  }

  /** Text without upper-case ASCII letters. */
  predicate NoUpper(s: string) { forall i :: 0 <= i < |s| ==> !('A' <= s[i] <= 'Z') }

  /** Text without upper-case ASCII letters is its own lower case. */
  lemma LowerOfNoUpper(s: string)
    requires NoUpper(s)
    ensures ToLower(s) == s
  {
  }

  /** Trimming and lower-casing leave text alone that has no edge white space and no upper case. */
  lemma PlainText(s: string)
    requires |s| > 0 && !IsSpace(s[0]) && !IsSpace(s[|s| - 1]) && NoUpper(s)
    ensures ToLower(Trim(s)) == s
  {
    LowerOfNoUpper(s);
  }

  /** Drops the white space at the front: what is left is a suffix of `s`. */
  function TrimStart(s: string): (r: string)
    ensures |r| <= |s| && r == s[|s| - |r|..]
    ensures AllSpaces(s[..|s| - |r|])
    ensures |r| == 0 || !IsSpace(r[0])
  {
    if |s| > 0 && IsSpace(s[0]) then TrimStart(s[1..]) else s
  }

  /** Drops the white space at the back: what is left is a prefix of `s`. */
  function TrimEnd(s: string): (r: string)
    ensures |r| <= |s| && r == s[..|r|]
    ensures AllSpaces(s[|r|..])
    ensures |r| == 0 || !IsSpace(r[|r| - 1])
  {
    if |s| > 0 && IsSpace(s[|s| - 1]) then
      var r := TrimEnd(s[..|s| - 1]);
      assert s[|r|..] == s[..|s| - 1][|r|..] + [s[|s| - 1]];
      r
    else s
  }

  /**
   * `String.prototype.trim`: the result neither starts nor ends with white
   * space, and a string that already does not is returned unchanged.
   */
  function Trim(s: string): (r: string)
    ensures |r| == 0 || (!IsSpace(r[0]) && !IsSpace(r[|r| - 1]))
    ensures |s| == 0 || (!IsSpace(s[0]) && !IsSpace(s[|s| - 1])) ==> r == s
  {
    TrimEnd(TrimStart(s))
  }

  // ---------------------------------------------------------------- join and split

  /** `parts.join(sep)`: the empty array joins to the empty string. */
  function Join(parts: seq<string>, sep: string): string
  {
    if |parts| == 0 then ""
    else if |parts| == 1 then parts[0]
    else parts[0] + sep + Join(parts[1..], sep)
  }

  /** `s.split(c)` for a one-character separator: never an empty array. */
  function Split(s: string, c: char): (parts: seq<string>)
    ensures |parts| >= 1
  {
    if |s| == 0 then [""]
    else
      var rest := Split(s[1..], c);
      if s[0] == c then [""] + rest else [[s[0]] + rest[0]] + rest[1..]
  }

  lemma {:induction false} SplitWithout(p: string, c: char)
    requires c !in p
    ensures Split(p, c) == [p]
  {
    if |p| > 0 {
      SplitWithout(p[1..], c);
      assert [p[0]] + p[1..] == p;
    }
  }

  lemma {:induction false} SplitFirst(p: string, c: char, t: string)
    requires c !in p
    ensures Split(p + [c] + t, c) == [p] + Split(t, c)
  {
    var s := p + [c] + t;
    if |p| == 0 {
      assert s[1..] == t;
    } else {
      assert s[1..] == p[1..] + [c] + t;
      SplitFirst(p[1..], c, t);
      assert [p[0]] + p[1..] == p;
    }
  }

  /**
   * Splitting a join at its one-character separator gives the parts back,
   * provided there is at least one part and none contains the separator.
   */
  lemma {:induction false} SplitJoin(parts: seq<string>, c: char)
    requires |parts| >= 1
    requires forall i :: 0 <= i < |parts| ==> c !in parts[i]
    ensures Split(Join(parts, [c]), c) == parts
  {
    if |parts| == 1 {
      SplitWithout(parts[0], c);
    } else {
      SplitJoin(parts[1..], c);
      SplitFirst(parts[0], c, Join(parts[1..], [c]));
      assert [parts[0]] + parts[1..] == parts;
    }
  }

  /**
   * Joining with `c` and a space, then splitting at `c` what follows one more
   * leading space, gives every part back behind a space of its own.
   */
  lemma {:induction false} SplitSpaced(parts: seq<string>, c: char)
    requires |parts| >= 1 && c != ' '
    requires forall i :: 0 <= i < |parts| ==> c !in parts[i]
    ensures Split(" " + Join(parts, [c, ' ']), c) == seq(|parts|, i requires 0 <= i < |parts| => " " + parts[i])
  {
    var spaced := seq(|parts|, i requires 0 <= i < |parts| => " " + parts[i]);
    if |parts| == 1 {
      SplitWithout(" " + parts[0], c);
    } else {
      var rest := Join(parts[1..], [c, ' ']);
      SplitSpaced(parts[1..], c);
      assert " " + Join(parts, [c, ' ']) == (" " + parts[0]) + [c] + (" " + rest);
      SplitFirst(" " + parts[0], c, " " + rest);
      assert spaced == [" " + parts[0]] + spaced[1..];
    }
  }

  /** A character that occurs in no part and not in the separator is absent from the join. */
  lemma {:induction false} JoinAvoids(parts: seq<string>, sep: string, c: char)
    requires c !in sep
    requires forall i :: 0 <= i < |parts| ==> c !in parts[i]
    ensures c !in Join(parts, sep)
  {
    if |parts| > 1 {
      JoinAvoids(parts[1..], sep, c);
    }
  }
}

=== FILE: wrappers.dfy ===
/** The absent-or-present value the browser scripts express with `null`. */
module Wrappers {

  datatype Option<+T> = None | Some(value: T) {

    /** The carried value, or `default` when absent (the `x || d` idiom). */
    function GetOr(default: T): T
    {
      match this
      case Some(v) => v
      case None => default
    }
  }
}
